=== FILE: README.md ===
# Locator healing, test generation and snapshot parsing, in Dafny

A model of the pure core of a Playwright test-automation helper. It covers three parts.

- **Locator healer.** Given a broken locator string and the candidate elements of a page, it proposes replacement locators and ranks them by confidence.
  - It classifies the broken locator by its `getBy…` prefix.
  - It walks the configured priority order of locator kinds and skips the broken locator's own kind.
  - For each kind it takes the first element that supports that kind, then builds a selector, a confidence and an explanation.
  - It stable-sorts the proposals, highest confidence first.
- **Test generator.** It turns plain-language steps into a Playwright script in Java, TypeScript or JavaScript.
  - Each step is read as a navigation, a click, a typing action or a comment, by keyword and regular expression.
  - Each step is rendered as one line between a fixed header and footer.
  - The locator calls are then collected back out of the finished script.
- **Snapshot parser.** It turns the adapter's accessibility snapshot text, one `ref key=value…` line per element, into element snapshots.

## Files

- `types.dfy`:
  - module `Wrappers`: the `Option` type;
  - module `Types`: the records of `src/types/index.ts`, JavaScript truthiness of optional strings (`Present`), and how a template literal prints an absent field (`Show`).
- `strings.dfy`, module `Strings`. These are the string primitives the code relies on:
  - `startsWith`, `includes`, `split` and `join`;
  - the `/i` folding and `toLowerCase` as far as ASCII words can tell;
  - the character classes `\w`, `\s`, `.`, `[^,\s]` and `[^)]`, with greedy runs over them.
- `classifier.dfy`, module `Classifier`: classification by a table of prefix markers. It shows that a prefix-free table classifies the same in any order.
- `ranking.dfy`, module `Ranking`: the stable descending sort by confidence.
- `healer.dfy`, module `Healer`: `src/healer/locator-healer.ts`.
- `snapshot_parser.dfy`, module `SnapshotParser`: `parseSnapshot` of `src/core/playwright-cli.ts`.
- `test_generator.dfy`, module `TestGenerator`: `src/generator/test-generator.ts`.

The regular expressions are modelled exactly, not abstracted:
- a leftmost start;
- greedy runs;
- the backtracking of `(.+)` and `\s+` to the last split that still completes a match;
- `/i` folding for ASCII letters only (no `u` flag);
- `/g` as repeated leftmost matches from the end of the previous one.

The script templates are the exact strings of the source.

## Model

| member | source | states |
|---|---|---|
| Healer.BaseConfidence | src/healer/locator-healer.ts:3-11 | every table weight lies strictly between 0 and 1 |
| Healer.BaseConfidenceRanksKinds | src/healer/locator-healer.ts:3-11 | the table ranks role > label > testId > placeholder > text > css > xpath, with no ties |
| Healer.NewHealer | src/healer/locator-healer.ts:16-22 | a field the caller overrides takes the caller's value; any other field keeps its default (the six-kind order, minimum confidence 0.7) |
| Healer.DefaultOrderShape | src/healer/locator-healer.ts:18 | the default order has six entries: every kind but xpath, exactly once |
| Healer.HealerMarkersArePrefixFree | src/healer/locator-healer.ts:88-93 | none of the five `getBy…` markers is a prefix of another |
| Healer.DetectType | src/healer/locator-healer.ts:88-96 | the kind is that of the first marker in source order that prefixes the locator, else css; never xpath |
| Healer.NotGetByIsCss | src/healer/locator-healer.ts:88-96 | a locator whose first character is not `g` is css. This covers XPath-looking, `#id` and `.class` strings |
| Healer.FindBestMatch | src/healer/locator-healer.ts:46-58 | no result exactly when no element satisfies the kind's predicate. Otherwise the result is the first such element in input order |
| Healer.FirstMatchIsUnique | src/healer/locator-healer.ts:46-58 | the first matching element is unique |
| Healer.BuildLocator | src/healer/locator-healer.ts:60-79 | a role locator is exactly `getByRole('<role>')`, with `button` for a missing role, and with `, { name: '<label>' }` before the `)` exactly when the label is present. The label, test-id, placeholder and text locators are exactly `getByLabel('…')`, `getByTestId('…')`, `getByPlaceholder('…')` and `getByText('…', { exact: false })` around the field as a template prints it. A css locator is `#id` when the id is present, else `.` plus the class up to its first space. Only xpath gives the empty string |
| Healer.SatisfiedLocatorQuotesValue | src/healer/locator-healer.ts:46-79 | for an element that satisfies a kind (role, label, test-id or placeholder set; text set and longer than 2; class or id set; never xpath), the built locator quotes the field's own value, never `undefined` |
| Healer.MakeSuggestion | src/healer/locator-healer.ts:34-39 | one pushed suggestion: `original` is the broken locator, `fixed` is the built locator and the strategy's selector, the kind classifies back as itself, and the confidence is the table weight when the element satisfies the kind |
| Healer.LeadingSpaceClassGivesBareDot | src/healer/locator-healer.ts:73-75 | with no id and a class that starts with a space, the css locator is `locator('.')` |
| Healer.BuiltLocatorClassifiesAsItsKind | src/healer/locator-healer.ts:60-96 | every synthesised locator is classified back as the kind it was built for |
| Healer.CalculateConfidence | src/healer/locator-healer.ts:81-86 | the confidence is positive, at most the table weight and at most 1. It equals the weight whenever the element satisfies the kind, so the ×0.5 and ×0.7 branches never reach a suggestion |
| Healer.GetReason | src/healer/locator-healer.ts:98-109 | the explanation is non-empty. For the five attribute kinds it quotes the element's field (`undefined` when absent) |
| Healer.ReasonForRole | src/healer/locator-healer.ts:100 | the role explanation is exactly `ARIA role '<role>' is resilient to DOM changes` |
| Healer.ReasonForLabel | src/healer/locator-healer.ts:101 | the label explanation is exactly `Label '<label>' provides stable form targeting` |
| Healer.ReasonForTestId | src/healer/locator-healer.ts:102 | the test-id explanation is exactly `testId '<testId>' is the most stable selector` |
| Healer.ReasonForPlaceholder | src/healer/locator-healer.ts:103 | the placeholder explanation is exactly `Placeholder '<placeholder>' targets inputs reliably` |
| Healer.ReasonForText | src/healer/locator-healer.ts:104 | the text explanation is exactly `Text '<text>' matches visible content` |
| Healer.ReasonForFallbacks | src/healer/locator-healer.ts:105-106 | the css and xpath explanations are the fixed sentences `Fallback to CSS selector using class/id` and `Fallback to XPath selector` |
| Healer.JustifiedFacts | src/healer/locator-healer.ts:34-38 | a suggestion built from its kind's first match has `original` = the broken locator, `fixed` = its selector, a non-xpath kind and the table weight as confidence |
| Healer.SuggestionFor | src/healer/locator-healer.ts:29-40 | one iteration pushes exactly one suggestion when the kind is not the broken kind and some element matches; otherwise it pushes nothing |
| Healer.Candidates | src/healer/locator-healer.ts:28-41 | at most one suggestion per order entry. Each suggestion's kind is listed in the order and differs from the broken kind |
| Healer.CandidatesAreJustified | src/healer/locator-healer.ts:28-41 | every candidate is the suggestion built for its kind from that kind's first matching element |
| Healer.SuggestHealing | src/healer/locator-healer.ts:24-44 | the result is sorted by non-increasing confidence and is a permutation of the candidates. Each entry is justified, never of the broken kind, has `fixed` equal to its selector and carries its table weight |
| Healer.CandidatesPerKind | src/healer/locator-healer.ts:28-41 | each kind occurs among the candidates as often as the order lists it, when it is not the broken kind and some element matches it; otherwise it never occurs |
| Healer.SuggestionsPerKind | src/healer/locator-healer.ts:24-57 | the same count holds for the ranked result |
| Healer.CandidatesSkipBrokenEntries | src/healer/locator-healer.ts:28-29 | the candidates number at most the order's length minus its entries naming the broken kind |
| Healer.EqualConfidencesKeepPriorityOrder | src/healer/locator-healer.ts:28-43 | suggestions of equal confidence come out in the order the priority loop produced them |
| Healer.NoSnapshotsNoSuggestions | src/healer/locator-healer.ts:24-57 | no elements give no suggestions |
| Healer.DefaultHealerBounds | src/healer/locator-healer.ts:17-21 | the default healer proposes at most five locators and never xpath |
| Healer.RoleLeadsWhenAvailable | src/healer/locator-healer.ts:24-44 | with role listed, a non-role broken locator and some element with a role, the top suggestion is a role locator at 0.95 |
| Healer.KindIsSuggested | src/healer/locator-healer.ts:24-57 | a listed kind other than the broken kind, supported by some element, is suggested at its table weight |
| Healer.FixtureClassSelectorHealsToRole | tests/locator-healer.test.ts:15-19 | on the five-element fixture, `.submit-btn` is healed first by a role locator at 0.95 |
| Healer.FixtureIdSelectorHealsToRole | tests/locator-healer.test.ts:21-24 | on the fixture, `#username-field` is classified css and its top suggestion is a role locator |
| Healer.FixtureRoleLocatorGetsNoRole | tests/locator-healer.test.ts:33-36 | a broken `getByRole('button')` receives no role suggestion |
| Healer.FixtureConfidenceLevels | tests/locator-healer.test.ts:40-50 | for `.btn` the fixture yields a role suggestion at 0.95 and a text suggestion at 0.6, below 0.7 |
| Ranking.Insert | src/healer/locator-healer.ts:43 | inserting into a sorted list keeps it sorted and adds exactly the new element |
| Ranking.SortByConfidence | src/healer/locator-healer.ts:43 | the result is sorted by non-increasing confidence and is a permutation of the input |
| Ranking.SortIsStable | src/healer/locator-healer.ts:43 | for every confidence value, the suggestions of that value keep their input order |
| Ranking.SortPermutesKinds | src/healer/locator-healer.ts:43 | sorting permutes the suggestion kinds along with the suggestions |
| Classifier.ClassifyBy | src/healer/locator-healer.ts:88-96 | the result is css or the kind of a marker that prefixes the string; it is css when no marker does |
| Classifier.PrefixFreeMatchWins | src/healer/locator-healer.ts:88-96 | in a prefix-free table, the kind of whichever marker prefixes the string is returned, wherever that marker sits in the table |
| Classifier.SameMarkersSameClassification | src/generator/test-generator.ts:122-129 | two prefix-free tables with the same markers classify every string alike, in whatever order they list the markers |
| Strings.Includes | src/generator/test-generator.ts:77 | `includes` holds exactly when the word occurs somewhere in the string |
| Strings.ToLower | src/generator/test-generator.ts:75 | the lowered string has the same length, with each character lowered on its own |
| Strings.JoinStarts | src/generator/test-generator.ts:15 | a non-empty list joins into a string that starts with its first piece |
| Strings.JoinEndsLast | src/generator/test-generator.ts:15 | a non-empty list joins into a string that ends with its last piece |
| Strings.Split | src/core/playwright-cli.ts:67 | no piece holds the separator, and the pieces joined with it give back the string |
| Strings.SplitJoin | src/core/playwright-cli.ts:67 | splitting the join of separator-free pieces gives back the pieces |
| Strings.SplitConcat | src/core/playwright-cli.ts:67 | the split of `a + sep + b` is the split of `a` followed by the split of `b` |
| Strings.FirstToken | src/healer/locator-healer.ts:75 | `split(' ')[0]` is the prefix of the string before its first space |
| Strings.JoinAppend | src/generator/test-generator.ts:15 | the join of two non-empty lists is their joins with one separator between them |
| SnapshotParser.MatchLine | src/core/playwright-cli.ts:71-72 | `^(\w+)\s+(.+)$` matches exactly when the line splits into a word run, white space and a terminator-free rest. The reference is the whole word run and the white space is as long as possible |
| SnapshotParser.Capture | src/core/playwright-cli.ts:77-90 | `key=(cls+)` gives a value exactly when some occurrence of the key is followed by a class character. The value is the maximal non-empty run after the leftmost such occurrence |
| SnapshotParser.ParseLine | src/core/playwright-cli.ts:71-92 | a line yields a snapshot exactly when the line pattern matches. The snapshot's ref is the matched word run, its tag is `unknown`, it has no attributes, and its role, label, text, placeholder and test id are the captures of `role=\w+`, `label=`, `text=`, `placeholder=` and `testid=` followed by `[^,\s]+` in the matched content |
| SnapshotParser.NonBlankLines | src/core/playwright-cli.ts:67 | the kept lines are lines of the input, none of them blank |
| SnapshotParser.NonBlankLinesOfOne | src/core/playwright-cli.ts:67 | one line is kept exactly when it is not blank |
| SnapshotParser.NonBlankLinesAppend | src/core/playwright-cli.ts:67 | filtering a concatenation filters each part in turn, so kept lines stay in input order |
| SnapshotParser.NonBlankLinesKeepsEvery | src/core/playwright-cli.ts:67 | every non-blank input line is kept |
| SnapshotParser.Emitted | src/core/playwright-cli.ts:71-92 | a kept line adds one snapshot exactly when it matches the line pattern, with the matched reference, and nothing otherwise |
| SnapshotParser.ParseLines | src/core/playwright-cli.ts:70-93 | the loop adds at most one snapshot per line, each of the parsed shape |
| SnapshotParser.ParseLinesAppend | src/core/playwright-cli.ts:70-93 | the snapshots of two line lists are those of each, in order |
| SnapshotParser.ParseSnapshot | src/core/playwright-cli.ts:65-99 | there is at most one snapshot per non-blank line, each of the parsed shape |
| SnapshotParser.BlankLinesNeverMatch | src/core/playwright-cli.ts:67-72 | a blank line never has the `ref content` shape |
| SnapshotParser.CarriageReturnLinesNeverMatch | src/core/playwright-cli.ts:71 | a line ending in `\r` never matches |
| SnapshotParser.ParseSnapshotConcat | src/core/playwright-cli.ts:67-92 | the snapshots of `a + "\n" + b` are those of `a` followed by those of `b`, so the output follows line order |
| SnapshotParser.ParseSnapshotOfOneLine | src/core/playwright-cli.ts:67-92 | a one-line output yields that line's snapshot when it matches, and nothing otherwise |
| SnapshotParser.BlankLineContributesNothing | src/core/playwright-cli.ts:67 | inserting a blank line anywhere leaves the result unchanged |
| SnapshotParser.ParsedNeverSatisfiesCss | src/core/playwright-cli.ts:75 | a parsed snapshot has no attributes, so it never supports a css locator |
| SnapshotParser.HealingParsedSnapshotNeverSuggestsCss | src/healer/locator-healer.ts:46-57 | healing against parsed snapshot text never proposes a css locator |
| TestGenerator.UrlPrefixAt | src/generator/test-generator.ts:78 | the alternative found occurs at the index, and none occurs when nothing is found |
| TestGenerator.UrlMatch | src/generator/test-generator.ts:78 | The address pattern (`to ` or `http://` or `https://`, then a non-space run) has no match exactly when no start matches. Otherwise the match is taken at the leftmost matching start, with the greedy non-space run |
| TestGenerator.UrlMatchIsSuffix | src/generator/test-generator.ts:78 | a leftmost match whose run reaches the end is the whole rest of the step |
| TestGenerator.StripLeadingTo | src/generator/test-generator.ts:79 | the result is a suffix of the address. When anything is removed, it is a leading `to ` or `go to `, in any case |
| TestGenerator.StripsSpokenPrefix | src/generator/test-generator.ts:79 | a leading `to ` or `go to `, lower case or capitalised, is removed and nothing else is |
| TestGenerator.StripOfMatchedUrl | src/generator/test-generator.ts:78-79 | of a matched address only an exact leading `to ` is removed |
| TestGenerator.NavigationTarget | src/generator/test-generator.ts:78-79 | the target holds no white space, and it is empty when nothing matches. Otherwise it is the match without its leading `to `, when it has one |
| TestGenerator.NavigateToAddress | src/generator/test-generator.ts:77-79 | `Navigate to <address>` navigates to exactly the address when it holds no white space. The TypeScript line is `await page.goto('<address>');` and the Java line is `page.navigate("<address>");` |
| TestGenerator.FillMatch | src/generator/test-generator.ts:85 | The typing pattern (`type` or `fill`, a value, ` in `/` into `/` on `, a field, any case) matches exactly when some keyword/separator pair completes a match. The groups come from the leftmost keyword and the last workable separator, and both are non-empty |
| TestGenerator.FillMatchIs | src/generator/test-generator.ts:85 | a match at the leftmost keyword with the last workable separator determines the two groups |
| TestGenerator.SeparatorNeedsSpaces | src/generator/test-generator.ts:85 | every separator starts and ends with a space |
| TestGenerator.TypedValueRoundTrip | src/generator/test-generator.ts:85 | the match of `Type <value> into <field>` gives back the value and the field, for any one-line value and any field without white space |
| TestGenerator.TypedStepRoundTrip | src/generator/test-generator.ts:85 | the typed-step round trip, stated on a string described by its parts |
| TestGenerator.TypingStepFills | src/generator/test-generator.ts:84-86 | such a step, when it names no navigation or click, fills the field's suggested locator with the value |
| TestGenerator.SuggestLocator | src/generator/test-generator.ts:92-98 | the locator contains the target as the case-insensitive pattern `/target/i`. It opens with `getByRole('button', { name: ` for a button, `getByRole('link', { name: ` for a link, `getByLabel(` for an input or field, and `getByText(` otherwise. The words are checked in that order on the lower-cased target |
| TestGenerator.SuggestedLocatorKind | src/generator/test-generator.ts:92-98 | the locator's kind is role for a button or link, label for an input or field, text otherwise |
| TestGenerator.ParseStep | src/generator/test-generator.ts:74-90 | dispatch priority as iffs: navigation words, then click, then typing with a matching pattern, then comment. A comment keeps the step verbatim, a navigation targets the stripped address, a click targets the suggested locator of the step, and a fill the suggested locator of the field with the typed value |
| TestGenerator.JavaLine | src/generator/test-generator.ts:46-58 | a comment renders as `// …`. Every other step renders as a `page.` statement ending in `;`: `page.navigate("<target>");`, `page.locator("<target>").click();` or `page.locator("<target>").fill("<value>");` |
| TestGenerator.ScriptLine | src/generator/test-generator.ts:60-72 | a comment renders as `// …`. Every other step renders as an `await page.` statement ending in `;`: `await page.goto('<target>');`, `await page.locator('<target>').click();` or `await page.locator('<target>').fill('<value>');` |
| TestGenerator.StepLine | src/generator/test-generator.ts:46-72 | a line is a comment exactly when the step was read as one, and then it is `// <step>` in every language |
| TestGenerator.StepLines | src/generator/test-generator.ts:15 | the steps are mapped one to one: there are exactly as many lines as steps |
| TestGenerator.StepLineAt | src/generator/test-generator.ts:15 | the line at each index is the line of the step at that index, so the lines keep the step order |
| TestGenerator.StepLinesAppend | src/generator/test-generator.ts:40 | the lines of two step lists are the lines of each, in order |
| TestGenerator.BodyOfConcatenation | src/generator/test-generator.ts:15 | steps render independently: the body of `a + b` is the body of `a`, the separator, then the body of `b` |
| TestGenerator.BodyOfOneStep | src/generator/test-generator.ts:40 | a single step's body is its own line |
| TestGenerator.BuildCode | src/generator/test-generator.ts:14-44 | the script is the language's header, then the joined body, then the footer, with nothing else |
| TestGenerator.HeaderOpens | src/generator/test-generator.ts:16-38 | each language's header opens with its package clause, `import` or `require` binding |
| TestGenerator.ScriptRevealsLanguage | src/generator/test-generator.ts:7-9 | a script opens with the Java package clause exactly when the language is Java, and likewise for the TypeScript import and the JavaScript require |
| TestGenerator.Generate | src/generator/test-generator.ts:4-12 | errors are always empty. The code is the script built for the request's language and steps, framed by that language's header and footer. The locators are exactly those extracted from that code; each has confidence 0.8, is found in the code, and carries the healer's classification of its text |
| TestGenerator.CallEnd | src/generator/test-generator.ts:102-107 | a call match ends at its first `)`, after a non-empty run free of `)` |
| TestGenerator.CallSpans | src/generator/test-generator.ts:112 | the spans are exactly the global scan: the leftmost match from the current position, then a rescan from its end, until none is left |
| TestGenerator.ScanSpansAreMatches | src/generator/test-generator.ts:112 | every scanned span is a match, and spans do not overlap and come left to right |
| TestGenerator.GlobalScanIsUnique | src/generator/test-generator.ts:112 | the global scan from a position is determined by the script |
| TestGenerator.MatchedCallText | src/generator/test-generator.ts:112-115 | a matched call text starts with its prefix, ends with `)` and occurs in the script |
| TestGenerator.CallMatches | src/generator/test-generator.ts:112-116 | the matched texts are, one for one and in order, the script's text under the spans of the global scan; each starts with the pattern's prefix, ends with `)` and occurs in the script |
| TestGenerator.LocatorsOf | src/generator/test-generator.ts:112-117 | one locator per scanned span, in order, whose selector is that match's text; each has confidence 0.8, starts with the pattern's prefix, occurs in the script and carries its classification |
| TestGenerator.LocatorsOfAll | src/generator/test-generator.ts:111-118 | the same, pattern by pattern, with each locator starting with one of the prefixes |
| TestGenerator.ExtractLocators | src/generator/test-generator.ts:100-120 | the result is the locators of the six patterns concatenated in the order role, label, text, placeholder, test-id, `locator(`. Every locator has confidence 0.8, is a call text found in the script, and has the healer's classification |
| TestGenerator.PatternByPattern | src/generator/test-generator.ts:101-118 | the loop over the six patterns yields their blocks one after another, in the array's order |
| TestGenerator.ExtractedLocatorsAreGroupedByKind | src/generator/test-generator.ts:100-119 | locators come grouped in pattern order: role, label, text, placeholder, test-id, then `locator(…)` |
| TestGenerator.LocatorsFollowPatternOrder | src/generator/test-generator.ts:111-118 | when the pattern at index i yields only rank base + i, the collected locators have non-decreasing rank, none below base |
| TestGenerator.OrderedConcatenation | src/generator/test-generator.ts:111-118 | a block of rank base followed by an ordered run of higher ranks is ordered |
| TestGenerator.MatchOfPatternHasItsKind | src/generator/test-generator.ts:102-107 | every match of the pattern at index k is classified as that pattern's kind |
| TestGenerator.GeneratorMarkersArePrefixFree | src/generator/test-generator.ts:123-127 | none of the generator's five markers is a prefix of another |
| TestGenerator.GeneratorDetectType | src/generator/test-generator.ts:122-129 | the kind is that of the first marker in the generator's order that prefixes the text, else css; never xpath |
| TestGenerator.CallIsClassified | src/generator/test-generator.ts:122-129 | a text starting with a marker is classified as that marker's kind |
| TestGenerator.DetectTypesAgree | src/generator/test-generator.ts:122-129 | the generator's and the healer's classifiers agree on every string, despite their different orders |

## Left out

- The process-driving methods of `PlaywrightCLI` (`run`, `open`, `click`, `fill`, `type`, `press`, `screenshot`, `eval`, src/core/playwright-cli.ts:5-63). They spawn a child process, await its output and parse JSON; none of that is pure logic.
- The `try`/`catch` around `parseSnapshot`. Nothing inside it can throw on a string, so the model is a total function and the `[]` fallback is never taken.
- `src/cli/index.ts` (argument wiring, console output, float formatting) and `mocksite/tests/TradingTerminalTest.java` (a browser-driving fixture). Neither holds logic of the core.
- `minConfidence` is stored by the constructor and never read. The model keeps the field and, like the source, filters nothing by it.
- `Healer.NewHealer`: an override object with a field explicitly set to `undefined` replaces the default with `undefined` under object spread. The model reads `None` as "not given", so this case is not modelled.
- `toLowerCase` is modelled by `ToLower`, which lowers ASCII capitals and the Kelvin sign. Every other character is left unchanged. The lowered text is only searched for the ASCII words `navigate`, `go to`, `open`, `click`, `type`, `fill`, `button`, `link`, `input` and `field`. For that search the model is exact: no other character lowers to an ASCII letter except `İ`, whose lower case `i̇` ends in a combining dot that no searched word contains.
- String lengths are counted in Unicode scalar values, not UTF-16 code units. The text-length test of `findBestMatch` (`text.length > 2`) therefore differs from the source only for texts with characters outside the Basic Multilingual Plane.
- `generate` reads neither `url` nor `framework` of the request, and neither does the model.
- The expectation at tests/locator-healer.test.ts:21-24 (a label suggestion first for `#username-field`) does not hold for the code. That locator classifies as css, so role is not skipped, and the role of the first fixture element outranks the label. `Healer.FixtureIdSelectorHealsToRole` states the code's behaviour instead.

=== FILE: classifier.dfy ===
/**
 Classification of a locator string by its leading marker. Both the healer
 (src/healer/locator-healer.ts:88-96) and the test generator
 (src/generator/test-generator.ts:122-129) are first-match scans of a table
 of `getBy…` markers that fall back to `Css`; they differ only in the order
 of their tables.
 */
module Classifier {
  import opened Types
  import opened Strings

  /** A locator-idiom marker and the kind it announces. */
  datatype Marker = Marker(prefix: string, kind: LocatorType)

  /** The kind of the first marker that prefixes `s`, or `Css` when none does. */
  function ClassifyBy(table: seq<Marker>, s: string): (k: LocatorType)
    ensures k == Css || exists i :: 0 <= i < |table| && table[i].kind == k && StartsWith(s, table[i].prefix)
    ensures (forall i :: 0 <= i < |table| ==> !StartsWith(s, table[i].prefix)) ==> k == Css
    decreases |table|
  {
    if table == [] then Css
    else if StartsWith(s, table[0].prefix) then table[0].kind
    else
      var k := ClassifyBy(table[1..], s);
      assert k != Css ==> exists i :: 1 <= i < |table| && table[i].kind == k && StartsWith(s, table[i].prefix) by {
        if k != Css {
          var i :| 0 <= i < |table[1..]| && table[1..][i].kind == k && StartsWith(s, table[1..][i].prefix);
          assert table[i + 1] == table[1..][i];
        }
      }
      k
  }

  /** No marker of the table is a prefix of another. */
  predicate PrefixFree(table: seq<Marker>)
  {
    forall i, j :: 0 <= i < |table| && 0 <= j < |table| && i != j ==> !StartsWith(table[j].prefix, table[i].prefix)
  }

  /**
   In a prefix-free table at most one marker can prefix a string, so the scan
   returns the kind of whichever marker does, wherever it sits in the table.
   */
  lemma {:induction false} PrefixFreeMatchWins(table: seq<Marker>, s: string, i: int)
    requires PrefixFree(table)
    requires 0 <= i < |table| && StartsWith(s, table[i].prefix)
    ensures ClassifyBy(table, s) == table[i].kind
    decreases |table|
  {
    if i > 0 {
      if StartsWith(s, table[0].prefix) {
        if |table[0].prefix| <= |table[i].prefix| {
          PrefixesOfOneString(s, table[0].prefix, table[i].prefix);
        } else {
          PrefixesOfOneString(s, table[i].prefix, table[0].prefix);
        }
        assert false;
      }
      var tail := table[1..];
      assert PrefixFree(tail) by {
        forall a, b | 0 <= a < |tail| && 0 <= b < |tail| && a != b
          ensures !StartsWith(tail[b].prefix, tail[a].prefix)
        {
          assert tail[a] == table[a + 1] && tail[b] == table[b + 1];
        }
      }
      assert tail[i - 1] == table[i];
      PrefixFreeMatchWins(tail, s, i - 1);
    }
  }

  /**
   Two prefix-free tables holding the same markers classify every string
   alike, whatever order they list the markers in.
   */
  lemma SameMarkersSameClassification(t1: seq<Marker>, t2: seq<Marker>, s: string)
    requires PrefixFree(t1) && PrefixFree(t2)
    requires forall m :: m in t1 <==> m in t2
    ensures ClassifyBy(t1, s) == ClassifyBy(t2, s)
  {
    if i :| 0 <= i < |t1| && StartsWith(s, t1[i].prefix) {
      PrefixFreeMatchWins(t1, s, i);
      assert t1[i] in t2;
      var j :| 0 <= j < |t2| && t2[j] == t1[i];
      PrefixFreeMatchWins(t2, s, j);
    } else {
      NoMarkerMeansCss(t1, s);
      forall j | 0 <= j < |t2|
        ensures !StartsWith(s, t2[j].prefix)
      {
        assert t2[j] in t1;
      }
      NoMarkerMeansCss(t2, s);
    }
  }

  lemma NoMarkerMeansCss(table: seq<Marker>, s: string)
    requires forall i :: 0 <= i < |table| ==> !StartsWith(s, table[i].prefix)
    ensures ClassifyBy(table, s) == Css
  {
  }
}

=== FILE: healer.dfy ===
/**
 The locator healing engine (src/healer/locator-healer.ts). Given a broken
 locator and the candidate elements of a page, it proposes, for every kind
 of the configured priority order except the broken locator's own, a
 locator built from the first element that supports that kind, and ranks
 the proposals by confidence.
 */
module Healer {
  import opened Wrappers
  import opened Types
  import opened Strings
  import opened Classifier
  import opened Ranking

  // ---- the confidence table ----

  /** The fixed weight of each kind (the `CONFIDENCE` table). */
  function BaseConfidence(k: LocatorType): (c: real)
    ensures 0.0 < c < 1.0
  {
    match k
    case Role => 0.95
    case Label => 0.90
    case TestId => 0.85
    case Placeholder => 0.80
    case Text => 0.60
    case Css => 0.30
    case XPath => 0.20
  }

  /** The table ranks the kinds from the most to the least robust, with no ties. */
  lemma BaseConfidenceRanksKinds()
    ensures BaseConfidence(Role) > BaseConfidence(Label) > BaseConfidence(TestId)
      > BaseConfidence(Placeholder) > BaseConfidence(Text) > BaseConfidence(Css) > BaseConfidence(XPath)
  {
  }

  // ---- configuration ----

  const DefaultPriorityOrder: seq<LocatorType> := [Role, Label, TestId, Placeholder, Text, Css]
  const DefaultMinConfidence: real := 0.7

  /** The `Partial<HealerConfig>` a caller may hand to the constructor. */
  datatype ConfigOverrides = ConfigOverrides(priorityOrder: Option<seq<LocatorType>>, minConfidence: Option<real>)

  const NoOverrides := ConfigOverrides(None, None)

  /** The constructor: the defaults, with every field the caller gave taking precedence. */
  function NewHealer(overrides: ConfigOverrides): (c: HealerConfig)
    ensures overrides.priorityOrder.Some? ==> c.priorityOrder == overrides.priorityOrder.value
    ensures overrides.priorityOrder.None? ==> c.priorityOrder == DefaultPriorityOrder
    ensures overrides.minConfidence.Some? ==> c.minConfidence == overrides.minConfidence.value
    ensures overrides.minConfidence.None? ==> c.minConfidence == DefaultMinConfidence
  {
    HealerConfig(
      match overrides.priorityOrder case Some(o) => o case None => DefaultPriorityOrder,
      match overrides.minConfidence case Some(m) => m case None => DefaultMinConfidence)
  }

  /** The default order lists six distinct kinds: every kind except XPath, once. */
  lemma DefaultOrderShape()
    ensures |DefaultPriorityOrder| == 6
    ensures XPath !in DefaultPriorityOrder
    ensures forall k :: k != XPath ==> multiset(DefaultPriorityOrder)[k] == 1
  {
  }

  // ---- classification of the broken locator ----

  /** The healer's marker table, in the order `detectType` tests it. */
  const HealerMarkers: seq<Marker> := [
    Marker("getByRole", Role),
    Marker("getByLabel", Label),
    Marker("getByTestId", TestId),
    Marker("getByPlaceholder", Placeholder),
    Marker("getByText", Text)
  ]

  /** None of the five `getBy…` markers is a prefix of another. */
  lemma HealerMarkersArePrefixFree()
    ensures PrefixFree(HealerMarkers)
  {
    var t := HealerMarkers;
    forall i, j | 0 <= i < |t| && 0 <= j < |t| && i != j
      ensures !StartsWith(t[j].prefix, t[i].prefix)
    {
      DistinctAt(t[j].prefix, t[i].prefix, if t[i].prefix[5] != t[j].prefix[5] then 5 else 7);
    }
  }

  /**
   `detectType`: the kind announced by the locator's leading marker, `Css`
   for anything else (the `#`/`.` test leads to `Css` as the default does).
   */
  function DetectType(selector: string): (k: LocatorType)
    ensures k == ClassifyBy(HealerMarkers, selector)
    ensures k != XPath
  {
    if StartsWith(selector, "getByRole") then Role
    else if StartsWith(selector, "getByLabel") then Label
    else if StartsWith(selector, "getByTestId") then TestId
    else if StartsWith(selector, "getByPlaceholder") then Placeholder
    else if StartsWith(selector, "getByText") then Text
    else if Includes(selector, "#") || Includes(selector, ".") then Css
    else Css
  }

  // ---- matching ----

  /** Whether an element can back a locator of kind `k` (the cases of `findBestMatch`). */
  predicate Satisfies(k: LocatorType, el: ElementSnapshot)
  {
    match k
    case Role => Present(el.role)
    case Label => Present(el.labelText)
    case TestId => Present(el.testId)
    case Placeholder => Present(el.placeholder)
    case Text => Present(el.text) && |el.text.value| > 2
    case Css => Present(Attribute(el, "class")) || Present(Attribute(el, "id"))
    case XPath => false
  }

  /** `el` is the first element of `snaps`, in input order, that satisfies `k`. */
  ghost predicate IsFirstMatch(k: LocatorType, snaps: seq<ElementSnapshot>, el: ElementSnapshot)
  {
    exists i :: 0 <= i < |snaps| && snaps[i] == el && Satisfies(k, el)
      && forall j :: 0 <= j < i ==> !Satisfies(k, snaps[j])
  }

  /**
   An element that satisfies a kind has the field that kind's locator quotes,
   so the locator carries the field's own value and never `undefined`.
   */
  lemma SatisfiedLocatorQuotesValue(k: LocatorType, el: ElementSnapshot)
    requires Satisfies(k, el)
    ensures k != XPath
    ensures k == Role ==> StartsWith(BuildLocator(k, el), "getByRole('" + el.role.value + "'")
    ensures k == Label ==> BuildLocator(k, el) == "getByLabel('" + el.labelText.value + "')"
    ensures k == TestId ==> BuildLocator(k, el) == "getByTestId('" + el.testId.value + "')"
    ensures k == Placeholder ==> BuildLocator(k, el) == "getByPlaceholder('" + el.placeholder.value + "')"
    ensures k == Text ==> |el.text.value| > 2
    ensures k == Text ==> BuildLocator(k, el) == "getByText('" + el.text.value + "', { exact: false })"
    ensures k == Css ==> Present(Attribute(el, "id")) || Present(Attribute(el, "class"))
  {
  }

  /** `findBestMatch`: the first element that satisfies `k`, if any does. */
  function FindBestMatch(k: LocatorType, snaps: seq<ElementSnapshot>): (r: Option<ElementSnapshot>)
    ensures r.None? <==> forall j :: 0 <= j < |snaps| ==> !Satisfies(k, snaps[j])
    ensures r.Some? ==> IsFirstMatch(k, snaps, r.value)
    decreases |snaps|
  {
    if snaps == [] then None
    else if Satisfies(k, snaps[0]) then
      assert snaps[0] == snaps[0];
      Some(snaps[0])
    else
      var r := FindBestMatch(k, snaps[1..]);
      FirstMatchShifts(k, snaps, r);
      r
  }

  lemma FirstMatchShifts(k: LocatorType, snaps: seq<ElementSnapshot>, r: Option<ElementSnapshot>)
    requires snaps != [] && !Satisfies(k, snaps[0])
    requires r.None? <==> forall j :: 0 <= j < |snaps[1..]| ==> !Satisfies(k, snaps[1..][j])
    requires r.Some? ==> IsFirstMatch(k, snaps[1..], r.value)
    ensures r.None? <==> forall j :: 0 <= j < |snaps| ==> !Satisfies(k, snaps[j])
    ensures r.Some? ==> IsFirstMatch(k, snaps, r.value)
  {
    if r.Some? {
      var i :| 0 <= i < |snaps[1..]| && snaps[1..][i] == r.value && Satisfies(k, r.value)
        && forall j :: 0 <= j < i ==> !Satisfies(k, snaps[1..][j]);
      assert snaps[i + 1] == r.value;
      forall j | 0 <= j < i + 1
        ensures !Satisfies(k, snaps[j])
      {
        if j > 0 {
          assert snaps[j] == snaps[1..][j - 1];
        }
      }
    } else {
      forall j | 0 <= j < |snaps|
        ensures !Satisfies(k, snaps[j])
      {
        if j > 0 {
          assert snaps[j] == snaps[1..][j - 1];
        }
      }
    }
  }

  /** There is only one first match. */
  lemma FirstMatchIsUnique(k: LocatorType, snaps: seq<ElementSnapshot>, a: ElementSnapshot, b: ElementSnapshot)
    requires IsFirstMatch(k, snaps, a) && IsFirstMatch(k, snaps, b)
    ensures a == b
  {
    var i :| 0 <= i < |snaps| && snaps[i] == a && Satisfies(k, a) && forall j :: 0 <= j < i ==> !Satisfies(k, snaps[j]);
    var i' :| 0 <= i' < |snaps| && snaps[i'] == b && Satisfies(k, b) && forall j :: 0 <= j < i' ==> !Satisfies(k, snaps[j]);
    assert !(i < i') && !(i' < i);
  }

  // ---- building a suggestion ----

  /** The value `class` contributes to a CSS locator: `attributes['class'] || ''`. */
  function ClassOrEmpty(el: ElementSnapshot): string
  {
    var c := Attribute(el, "class");
    if Present(c) then c.value else ""
  }

  /** `buildLocator`: the selector text of a locator of kind `k` for `el`. */
  function BuildLocator(k: LocatorType, el: ElementSnapshot): (r: string)
    ensures r == [] <==> k == XPath
    ensures k == Role && Present(el.role) ==> StartsWith(r, "getByRole('" + el.role.value + "'")
    ensures k == Role && !Present(el.role) ==> StartsWith(r, "getByRole('button'")
    ensures k == Role && Present(el.labelText) ==> EndsWith(r, ", { name: '" + el.labelText.value + "' })")
    ensures k == Role && !Present(el.labelText) ==> EndsWith(r, "')")
    ensures k == Css && Present(Attribute(el, "id")) ==> r == "locator('#" + Attribute(el, "id").value + "')"
    ensures k == Css && !Present(Attribute(el, "id")) ==> r == "locator('." + FirstToken(ClassOrEmpty(el)) + "')"
    ensures k == Role ==>
      r == "getByRole('" + (if Present(el.role) then el.role.value else "button") + "'"
        + (if Present(el.labelText) then ", { name: '" + el.labelText.value + "' }" else "") + ")"
    ensures k == Label ==> r == "getByLabel('" + Show(el.labelText) + "')"
    ensures k == TestId ==> r == "getByTestId('" + Show(el.testId) + "')"
    ensures k == Placeholder ==> r == "getByPlaceholder('" + Show(el.placeholder) + "')"
    ensures k == Text ==> r == "getByText('" + Show(el.text) + "', { exact: false })"
  {
    match k
    case Role => RoleLocator(el)
    case Label => "getByLabel('" + Show(el.labelText) + "')"
    case TestId => "getByTestId('" + Show(el.testId) + "')"
    case Placeholder => "getByPlaceholder('" + Show(el.placeholder) + "')"
    case Text => "getByText('" + Show(el.text) + "', { exact: false })"
    case Css => CssLocator(el)
    case XPath => ""
  }

  /** The CSS locator: by id when there is one, else by the first class name. */
  function CssLocator(el: ElementSnapshot): (r: string)
    ensures |r| > 0
    ensures Present(Attribute(el, "id")) ==> r == "locator('#" + Attribute(el, "id").value + "')"
    ensures !Present(Attribute(el, "id")) ==> r == "locator('." + FirstToken(ClassOrEmpty(el)) + "')"
  {
    var id := Attribute(el, "id");
    if Present(id) then "locator('#" + id.value + "')"
    else "locator('." + FirstToken(ClassOrEmpty(el)) + "')"
  }

  /** The role locator: the element's role, or `button`, named by the label when there is one. */
  function RoleLocator(el: ElementSnapshot): (r: string)
    ensures Present(el.role) ==> StartsWith(r, "getByRole('" + el.role.value + "'")
    ensures !Present(el.role) ==> StartsWith(r, "getByRole('button'")
    ensures Present(el.labelText) ==> EndsWith(r, ", { name: '" + el.labelText.value + "' })")
    ensures !Present(el.labelText) ==> EndsWith(r, "')")
    ensures r == "getByRole('" + (if Present(el.role) then el.role.value else "button") + "'"
      + (if Present(el.labelText) then ", { name: '" + el.labelText.value + "' }" else "") + ")"
  {
    var role := if Present(el.role) then el.role.value else "button";
    var name := if Present(el.labelText) then ", { name: '" + el.labelText.value + "' }" else "";
    assert name + ")" == if Present(el.labelText) then ", { name: '" + el.labelText.value + "' })" else ")";
    var r := RoleCall(role, name);
    if !Present(el.labelText) then
      assert r[|r| - 2] == '\'' by {
        assert r == "getByRole('" + role + "'" + ")";
      }
      r
    else r
  }

  /** The text of a role locator: the quoted role, then the name clause, if any. */
  function RoleCall(role: string, name: string): (r: string)
    ensures StartsWith(r, "getByRole('" + role + "'")
    ensures EndsWith(r, name + ")")
    ensures r == "getByRole('" + role + "'" + name + ")"
  {
    var open := "getByRole('" + role + "'";
    StartsWithAppend(open, name + ")", open);
    assert EndsWith(open + (name + ")"), name + ")");
    assert "getByRole('" + role + "'" + name + ")" == open + (name + ")");
    "getByRole('" + role + "'" + name + ")"
  }

  /**
   `calculateConfidence`: the table weight, halved for a role locator on an
   element without a role, scaled by 0.7 for a text shorter than three
   characters, and capped at 1.
   */
  function CalculateConfidence(k: LocatorType, el: ElementSnapshot): (c: real)
    ensures 0.0 < c <= BaseConfidence(k) <= 1.0
    ensures Satisfies(k, el) ==> c == BaseConfidence(k)
  {
    var base := BaseConfidence(k);
    var halved := if k == Role && !Present(el.role) then base * 0.5 else base;
    var scaled := if k == Text && Present(el.text) && |el.text.value| < 3 then halved * 0.7 else halved;
    if scaled < 1.0 then scaled else 1.0
  }

  /** The field of `el` a kind quotes in its explanation. */
  function QuotedField(k: LocatorType, el: ElementSnapshot): Option<string>
  {
    match k
    case Role => el.role
    case Label => el.labelText
    case TestId => el.testId
    case Placeholder => el.placeholder
    case Text => el.text
    case _ => None
  }

  /** `getReason`: a fixed explanation per kind, quoting the element's field for the five attribute kinds. */
  function GetReason(k: LocatorType, el: ElementSnapshot): (r: string)
    ensures |r| > 0
    ensures k != Css && k != XPath ==> Contains(r, "'" + Show(QuotedField(k, el)) + "'")
  {
    var q := "'" + Show(QuotedField(k, el)) + "'";
    match k
    case Role => OccursInMiddle("ARIA role ", q, " is resilient to DOM changes"); "ARIA role " + q + " is resilient to DOM changes"
    case Label => OccursInMiddle("Label ", q, " provides stable form targeting"); "Label " + q + " provides stable form targeting"
    case TestId => OccursInMiddle("testId ", q, " is the most stable selector"); "testId " + q + " is the most stable selector"
    case Placeholder => OccursInMiddle("Placeholder ", q, " targets inputs reliably"); "Placeholder " + q + " targets inputs reliably"
    case Text => OccursInMiddle("Text ", q, " matches visible content"); "Text " + q + " matches visible content"
    case Css => "Fallback to CSS selector using class/id"
    case XPath => "Fallback to XPath selector"
  }

  /** The role explanation quotes the role as a template literal prints it. */
  lemma ReasonForRole(el: ElementSnapshot)
    ensures GetReason(Role, el) == "ARIA role '" + Show(el.role) + "' is resilient to DOM changes"
  {
    var q := "'" + Show(el.role) + "'";
    assert "ARIA role " + q + " is resilient to DOM changes"
      == "ARIA role '" + Show(el.role) + "' is resilient to DOM changes";
  }

  /** The label explanation quotes the label. */
  lemma ReasonForLabel(el: ElementSnapshot)
    ensures GetReason(Label, el) == "Label '" + Show(el.labelText) + "' provides stable form targeting"
  {
    var q := "'" + Show(el.labelText) + "'";
    assert "Label " + q + " provides stable form targeting"
      == "Label '" + Show(el.labelText) + "' provides stable form targeting";
  }

  /** The test-id explanation quotes the test id. */
  lemma ReasonForTestId(el: ElementSnapshot)
    ensures GetReason(TestId, el) == "testId '" + Show(el.testId) + "' is the most stable selector"
  {
    var q := "'" + Show(el.testId) + "'";
    assert "testId " + q + " is the most stable selector"
      == "testId '" + Show(el.testId) + "' is the most stable selector";
  }

  /** The placeholder explanation quotes the placeholder. */
  lemma ReasonForPlaceholder(el: ElementSnapshot)
    ensures GetReason(Placeholder, el) == "Placeholder '" + Show(el.placeholder) + "' targets inputs reliably"
  {
    var q := "'" + Show(el.placeholder) + "'";
    assert "Placeholder " + q + " targets inputs reliably"
      == "Placeholder '" + Show(el.placeholder) + "' targets inputs reliably";
  }

  /** The text explanation quotes the text. */
  lemma ReasonForText(el: ElementSnapshot)
    ensures GetReason(Text, el) == "Text '" + Show(el.text) + "' matches visible content"
  {
    var q := "'" + Show(el.text) + "'";
    assert "Text " + q + " matches visible content" == "Text '" + Show(el.text) + "' matches visible content";
  }

  /** The css and xpath explanations are fixed sentences that quote nothing. */
  lemma ReasonForFallbacks(el: ElementSnapshot)
    ensures GetReason(Css, el) == "Fallback to CSS selector using class/id"
    ensures GetReason(XPath, el) == "Fallback to XPath selector"
  {
  }

  /** The suggestion the loop body pushes for kind `k` and matched element `el`. */
  function MakeSuggestion(broken: string, k: LocatorType, el: ElementSnapshot): (r: HealingSuggestion)
    ensures r.original == broken && r.strategy.kind == k
    ensures r.fixed == r.strategy.selector && r.fixed == BuildLocator(k, el)
    ensures k != XPath ==> DetectType(r.fixed) == k
    ensures Satisfies(k, el) ==> r.strategy.confidence == BaseConfidence(k)
    ensures r.strategy.confidence == CalculateConfidence(k, el) && r.reason == GetReason(k, el)
  {
    var fixed := BuildLocator(k, el);
    var r := HealingSuggestion(broken, fixed, LocatorStrategy(k, fixed, CalculateConfidence(k, el)), GetReason(k, el));
    if k == XPath then r
    else
      BuiltLocatorClassifiesAsItsKind(k, el);
      r
  }

  /** `s` is the suggestion the engine builds for its kind from the first matching element. */
  ghost predicate Justified(s: HealingSuggestion, broken: string, snaps: seq<ElementSnapshot>)
  {
    var k := s.strategy.kind;
    FindBestMatch(k, snaps).Some? && s == MakeSuggestion(broken, k, FindBestMatch(k, snaps).value)
  }

  /** What every justified suggestion carries. */
  lemma JustifiedFacts(s: HealingSuggestion, broken: string, snaps: seq<ElementSnapshot>)
    requires Justified(s, broken, snaps)
    ensures s.original == broken && s.fixed == s.strategy.selector
    ensures s.strategy.kind != XPath
    ensures s.strategy.confidence == BaseConfidence(s.strategy.kind)
    ensures 0.0 < s.strategy.confidence < 1.0
  {
  }

  // ---- the engine ----

  /**
   The suggestions of the loop over the priority order, before sorting:
   one per entry whose kind is not the broken kind and has a matching element.
   */
  function Candidates(order: seq<LocatorType>, brokenKind: LocatorType, broken: string, snaps: seq<ElementSnapshot>)
    : (r: seq<HealingSuggestion>)
    ensures |r| <= |order|
    ensures forall s | s in r :: s.strategy.kind in order && s.strategy.kind != brokenKind
    decreases |order|
  {
    if order == [] then []
    else SuggestionFor(order[0], brokenKind, broken, snaps) + Candidates(order[1..], brokenKind, broken, snaps)
  }

  /** What one iteration of the loop pushes for the priority entry `k`: nothing or one suggestion. */
  function SuggestionFor(k: LocatorType, brokenKind: LocatorType, broken: string, snaps: seq<ElementSnapshot>)
    : (r: seq<HealingSuggestion>)
    ensures |r| <= 1
    ensures |r| == 1 <==> k != brokenKind && FindBestMatch(k, snaps).Some?
    ensures forall s | s in r :: s.strategy.kind == k
  {
    if k == brokenKind then []
    else match FindBestMatch(k, snaps)
      case None => []
      case Some(el) => [MakeSuggestion(broken, k, el)]
  }

  /** Every candidate is the suggestion built for its kind from that kind's first match. */
  lemma {:induction false} CandidatesAreJustified(order: seq<LocatorType>, brokenKind: LocatorType, broken: string,
                                                  snaps: seq<ElementSnapshot>)
    ensures forall s | s in Candidates(order, brokenKind, broken, snaps) :: Justified(s, broken, snaps)
    decreases |order|
  {
    if order != [] {
      CandidatesAreJustified(order[1..], brokenKind, broken, snaps);
      var here := SuggestionFor(order[0], brokenKind, broken, snaps);
      if |here| == 1 {
        assert here == [MakeSuggestion(broken, order[0], FindBestMatch(order[0], snaps).value)];
      }
    }
  }

  /** `suggestHealing`: the candidates, ranked by confidence, highest first. */
  function SuggestHealing(config: HealerConfig, broken: string, snaps: seq<ElementSnapshot>): (r: seq<HealingSuggestion>)
    ensures Sorted(r)
    ensures multiset(r) == multiset(Candidates(config.priorityOrder, DetectType(broken), broken, snaps))
    ensures |r| <= |config.priorityOrder|
    ensures forall s | s in r :: Justified(s, broken, snaps)
    ensures forall s | s in r :: s.strategy.kind != DetectType(broken) && s.strategy.kind in config.priorityOrder
    ensures forall s | s in r :: s.original == broken && s.fixed == s.strategy.selector
    ensures forall s | s in r :: s.strategy.kind != XPath && s.strategy.confidence == BaseConfidence(s.strategy.kind)
  {
    var candidates := Candidates(config.priorityOrder, DetectType(broken), broken, snaps);
    var r := SortByConfidence(candidates);
    CandidatesAreJustified(config.priorityOrder, DetectType(broken), broken, snaps);
    SortedKeepsMembers(candidates, r, broken, snaps);
    r
  }

  lemma SortedKeepsMembers(candidates: seq<HealingSuggestion>, r: seq<HealingSuggestion>, broken: string, snaps: seq<ElementSnapshot>)
    requires multiset(r) == multiset(candidates)
    requires forall s | s in candidates :: Justified(s, broken, snaps)
    ensures forall s | s in r :: s in candidates && Justified(s, broken, snaps)
    ensures forall s | s in r :: s.original == broken && s.fixed == s.strategy.selector
    ensures forall s | s in r :: s.strategy.kind != XPath && s.strategy.confidence == BaseConfidence(s.strategy.kind)
  {
    forall s | s in r
      ensures s in candidates && Justified(s, broken, snaps)
      ensures s.original == broken && s.fixed == s.strategy.selector
      ensures s.strategy.kind != XPath && s.strategy.confidence == BaseConfidence(s.strategy.kind)
    {
      assert s in multiset(r);
      JustifiedFacts(s, broken, snaps);
    }
  }

  // ---- properties of the engine ----

  /** A locator whose first character cannot begin a `getBy…` marker is a CSS locator. */
  lemma NotGetByIsCss(selector: string)
    requires |selector| > 0 && selector[0] != 'g'
    ensures DetectType(selector) == Css
  {
    forall i | 0 <= i < |HealerMarkers|
      ensures !StartsWith(selector, HealerMarkers[i].prefix)
    {
      DistinctAt(selector, HealerMarkers[i].prefix, 0);
    }
    NoMarkerMeansCss(HealerMarkers, selector);
  }

  /** Every synthesised locator is classified back as the kind it was built for. */
  lemma BuiltLocatorClassifiesAsItsKind(k: LocatorType, el: ElementSnapshot)
    requires k != XPath
    ensures DetectType(BuildLocator(k, el)) == k
  {
    if k == Role {
      RoleLocatorClassifies(el);
    } else if k == Css {
      CssLocatorClassifies(el);
    } else {
      QuotedKindClassifies(k, el);
    }
  }

  /** The label, test-id, placeholder and text locators are classified as their kinds. */
  lemma QuotedKindClassifies(k: LocatorType, el: ElementSnapshot)
    requires k == Label || k == TestId || k == Placeholder || k == Text
    ensures DetectType(BuildLocator(k, el)) == k
  {
    match k {
      case Label => QuotedLocatorClassifies(Label, 1, el.labelText, "')", el);
      case TestId => QuotedLocatorClassifies(TestId, 2, el.testId, "')", el);
      case Placeholder => QuotedLocatorClassifies(Placeholder, 3, el.placeholder, "')", el);
      case Text => QuotedLocatorClassifies(Text, 4, el.text, "', { exact: false })", el);
    }
  }

  /** A call written as a marker followed by anything is classified as the marker's kind. */
  lemma MarkedCallClassifies(index: nat, rest: string)
    requires index < |HealerMarkers|
    ensures DetectType(HealerMarkers[index].prefix + rest) == HealerMarkers[index].kind
  {
    var p := HealerMarkers[index].prefix;
    assert StartsWith(p + rest, p) by {
      assert (p + rest)[..|p|] == p;
    }
    StartsWithMarkerClassifies(index, p + rest);
  }

  /** A locator that starts with a marker is classified as the marker's kind. */
  lemma StartsWithMarkerClassifies(index: nat, s: string)
    requires index < |HealerMarkers| && StartsWith(s, HealerMarkers[index].prefix)
    ensures DetectType(s) == HealerMarkers[index].kind
  {
    HealerMarkersArePrefixFree();
    PrefixFreeMatchWins(HealerMarkers, s, index);
  }

  /** The shape of the label, test-id, placeholder and text locators: a marker, then a quoted field. */
  lemma QuotedCallClassifies(index: nat, field: Option<string>, close: string)
    requires index < |HealerMarkers|
    ensures DetectType(HealerMarkers[index].prefix + "('" + Show(field) + close) == HealerMarkers[index].kind
  {
    var p := HealerMarkers[index].prefix;
    assert p + "('" + Show(field) + close == p + ("('" + Show(field) + close);
    MarkedCallClassifies(index, "('" + Show(field) + close);
  }

  lemma QuotedLocatorClassifies(k: LocatorType, index: nat, field: Option<string>, close: string, el: ElementSnapshot)
    requires index < |HealerMarkers| && HealerMarkers[index].kind == k
    requires BuildLocator(k, el) == HealerMarkers[index].prefix + "('" + Show(field) + close
    ensures DetectType(BuildLocator(k, el)) == k
  {
    QuotedCallClassifies(index, field, close);
  }

  lemma RoleLocatorClassifies(el: ElementSnapshot)
    ensures DetectType(BuildLocator(Role, el)) == Role
  {
    var r := BuildLocator(Role, el);
    var role := if Present(el.role) then el.role.value else "button";
    assert StartsWith(r, "getByRole('" + role + "'");
    assert "getByRole('" + role + "'" == "getByRole" + ("('" + role + "'");
    PrefixOfPrefix(r, "getByRole", "('" + role + "'");
    StartsWithMarkerClassifies(0, r);
  }

  lemma CssLocatorClassifies(el: ElementSnapshot)
    ensures DetectType(BuildLocator(Css, el)) == Css
  {
    var r := BuildLocator(Css, el);
    assert r[0] == 'l';
    NotGetByIsCss(r);
  }

  /**
   Only the text before the first space of the class names the CSS locator,
   so a class that starts with a space yields the bare `locator('.')`.
   */
  lemma LeadingSpaceClassGivesBareDot(el: ElementSnapshot)
    requires !Present(Attribute(el, "id"))
    requires Present(Attribute(el, "class")) && Attribute(el, "class").value[0] == ' '
    ensures BuildLocator(Css, el) == "locator('.')"
  {
  }

  /**
   How often each kind occurs among the candidates: as often as it is listed
   in the priority order, if it is not the broken kind and some element
   matches it; otherwise never.
   */
  lemma {:induction false} CandidatesPerKind(order: seq<LocatorType>, brokenKind: LocatorType, broken: string,
                                             snaps: seq<ElementSnapshot>, k: LocatorType)
    ensures multiset(Kinds(Candidates(order, brokenKind, broken, snaps)))[k]
      == if k != brokenKind && FindBestMatch(k, snaps).Some? then multiset(order)[k] else 0
    decreases |order|
  {
    if order != [] {
      var here := SuggestionFor(order[0], brokenKind, broken, snaps);
      var rest := Candidates(order[1..], brokenKind, broken, snaps);
      assert Candidates(order, brokenKind, broken, snaps) == here + rest;
      KindCountAppend(here, rest, k);
      SuggestionForCount(order[0], brokenKind, broken, snaps, k);
      CandidatesPerKind(order[1..], brokenKind, broken, snaps, k);
      CountCons(order, k);
    }
  }

  lemma KindCountAppend(a: seq<HealingSuggestion>, b: seq<HealingSuggestion>, k: LocatorType)
    ensures multiset(Kinds(a + b))[k] == multiset(Kinds(a))[k] + multiset(Kinds(b))[k]
  {
    KindsAppend(a, b);
  }

  lemma CountCons(order: seq<LocatorType>, k: LocatorType)
    requires order != []
    ensures multiset(order)[k] == (if order[0] == k then 1 else 0) + multiset(order[1..])[k]
  {
    assert order == [order[0]] + order[1..];
  }

  lemma SuggestionForCount(k0: LocatorType, brokenKind: LocatorType, broken: string, snaps: seq<ElementSnapshot>, k: LocatorType)
    ensures multiset(Kinds(SuggestionFor(k0, brokenKind, broken, snaps)))[k]
      == if k0 == k && k != brokenKind && FindBestMatch(k, snaps).Some? then 1 else 0
  {
    var r := SuggestionFor(k0, brokenKind, broken, snaps);
    if |r| == 1 {
      assert r[0] in r;
      assert Kinds(r) == [k0];
    } else {
      assert Kinds(r) == [];
    }
  }

  /** The candidates leave out every entry naming the broken kind. */
  lemma {:induction false} CandidatesSkipBrokenEntries(order: seq<LocatorType>, brokenKind: LocatorType, broken: string,
                                                       snaps: seq<ElementSnapshot>)
    ensures |Candidates(order, brokenKind, broken, snaps)| <= |order| - multiset(order)[brokenKind]
    decreases |order|
  {
    if order != [] {
      CandidatesSkipBrokenEntries(order[1..], brokenKind, broken, snaps);
      assert order == [order[0]] + order[1..];
    }
  }

  /**
   At most one suggestion per priority-order entry: each kind is suggested as
   often as the order lists it, provided it is not the broken locator's kind
   and some element supports it, and otherwise not at all.
   */
  lemma SuggestionsPerKind(config: HealerConfig, broken: string, snaps: seq<ElementSnapshot>, k: LocatorType)
    ensures multiset(Kinds(SuggestHealing(config, broken, snaps)))[k]
      == if k != DetectType(broken) && FindBestMatch(k, snaps).Some? then multiset(config.priorityOrder)[k] else 0
  {
    var candidates := Candidates(config.priorityOrder, DetectType(broken), broken, snaps);
    SortPermutesKinds(candidates);
    CandidatesPerKind(config.priorityOrder, DetectType(broken), broken, snaps, k);
  }

  /** Suggestions of equal confidence come out in priority order, as the stable sort leaves them. */
  lemma EqualConfidencesKeepPriorityOrder(config: HealerConfig, broken: string, snaps: seq<ElementSnapshot>, c: real)
    ensures WithConfidence(SuggestHealing(config, broken, snaps), c)
      == WithConfidence(Candidates(config.priorityOrder, DetectType(broken), broken, snaps), c)
  {
    SortIsStable(Candidates(config.priorityOrder, DetectType(broken), broken, snaps), c);
  }

  /** Without elements there is nothing to suggest. */
  lemma {:induction false} NoSnapshotsNoSuggestions(config: HealerConfig, broken: string)
    ensures SuggestHealing(config, broken, []) == []
  {
    NoSnapshotsNoCandidates(config.priorityOrder, DetectType(broken), broken);
  }

  lemma {:induction false} NoSnapshotsNoCandidates(order: seq<LocatorType>, brokenKind: LocatorType, broken: string)
    ensures Candidates(order, brokenKind, broken, []) == []
    decreases |order|
  {
    if order != [] {
      NoSnapshotsNoCandidates(order[1..], brokenKind, broken);
    }
  }

  /**
   The default healer suggests at most five locators, never XPath: its order
   lists six kinds once each, and the broken locator's kind is one of them.
   */
  lemma DefaultHealerBounds(broken: string, snaps: seq<ElementSnapshot>)
    ensures |SuggestHealing(NewHealer(NoOverrides), broken, snaps)| <= 5
    ensures forall s | s in SuggestHealing(NewHealer(NoOverrides), broken, snaps) :: s.strategy.kind != XPath
  {
    DefaultOrderShape();
    CandidatesSkipBrokenEntries(DefaultPriorityOrder, DetectType(broken), broken, snaps);
  }

  /**
   When the broken locator is not a role locator, the order lists `Role` and
   some element has a role, the top suggestion is a role locator of
   confidence 0.95: no other kind weighs as much.
   */
  lemma RoleLeadsWhenAvailable(config: HealerConfig, broken: string, snaps: seq<ElementSnapshot>, j: int)
    requires DetectType(broken) != Role && Role in config.priorityOrder
    requires 0 <= j < |snaps| && Present(snaps[j].role)
    ensures |SuggestHealing(config, broken, snaps)| > 0
    ensures SuggestHealing(config, broken, snaps)[0].strategy.kind == Role
    ensures SuggestHealing(config, broken, snaps)[0].strategy.confidence == 0.95
  {
    var r := SuggestHealing(config, broken, snaps);
    assert Satisfies(Role, snaps[j]);
    SuggestionsPerKind(config, broken, snaps, Role);
    KindOccurs(r, Role);
    var i :| 0 <= i < |r| && r[i].strategy.kind == Role;
    TopOfRanking(r, i);
  }

  lemma KindOccurs(r: seq<HealingSuggestion>, k: LocatorType)
    requires multiset(Kinds(r))[k] > 0
    ensures exists i :: 0 <= i < |r| && r[i].strategy.kind == k
  {
    assert k in Kinds(r);
  }

  /** In a ranking of table-weighted suggestions, a role suggestion anywhere puts one on top. */
  lemma TopOfRanking(r: seq<HealingSuggestion>, i: int)
    requires Sorted(r) && 0 <= i < |r| && r[i].strategy.kind == Role
    requires forall s | s in r :: s.strategy.confidence == BaseConfidence(s.strategy.kind)
    ensures r[0].strategy.kind == Role && r[0].strategy.confidence == 0.95
  {
    assert r[0] in r && r[i] in r;
  }

  /** A kind the order lists, other than the broken kind, that some element supports, is suggested at its table weight. */
  lemma KindIsSuggested(config: HealerConfig, broken: string, snaps: seq<ElementSnapshot>, k: LocatorType, j: int)
    requires k != DetectType(broken) && k in config.priorityOrder
    requires 0 <= j < |snaps| && Satisfies(k, snaps[j])
    ensures exists s | s in SuggestHealing(config, broken, snaps) :: s.strategy.kind == k && s.strategy.confidence == BaseConfidence(k)
  {
    var r := SuggestHealing(config, broken, snaps);
    SuggestionsPerKind(config, broken, snaps, k);
    KindOccurs(r, k);
    var i :| 0 <= i < |r| && r[i].strategy.kind == k;
    assert r[i] in r;
  }

  // ---- the fixture of tests/locator-healer.test.ts ----

  function Snapshot(ref: string, tag: string, role: Option<string>, labelText: Option<string>, text: Option<string>,
                    placeholder: Option<string>, testId: Option<string>, attributes: map<string, string>): ElementSnapshot
  {
    ElementSnapshot(ref, tag, role, labelText, text, placeholder, testId, attributes)
  }

  const Fixture: seq<ElementSnapshot> := [
    Snapshot("e1", "button", Some("button"), Some("Submit"), Some("Submit Order"), None, None, map[]),
    Snapshot("e2", "input", None, Some("Username"), None, Some("Enter username"), None, map[]),
    Snapshot("e3", "div", None, None, Some("Trading Panel"), None, Some("trade-panel"), map[]),
    Snapshot("e4", "input", None, None, None, Some("Search"), None, map["class" := "search-input"]),
    Snapshot("e5", "span", None, None, Some("Price"), None, None, map["id" := "price-display"])
  ]

  /** A broken CSS class selector is healed first by the role of `e1`, at 0.95. */
  lemma FixtureClassSelectorHealsToRole()
    ensures var r := SuggestHealing(NewHealer(NoOverrides), ".submit-btn", Fixture);
      |r| > 0 && r[0].strategy.kind == Role && r[0].strategy.confidence == 0.95
  {
    NotGetByIsCss(".submit-btn");
    RoleLeadsWhenAvailable(NewHealer(NoOverrides), ".submit-btn", Fixture, 0);
  }

  /**
   A broken id selector is classified as CSS too, so role is not skipped and
   the top suggestion is again the role of `e1`, not the label of `e2`.
   */
  lemma FixtureIdSelectorHealsToRole()
    ensures var r := SuggestHealing(NewHealer(NoOverrides), "#username-field", Fixture);
      |r| > 0 && r[0].strategy.kind == Role
    ensures DetectType("#username-field") == Css
  {
    NotGetByIsCss("#username-field");
    RoleLeadsWhenAvailable(NewHealer(NoOverrides), "#username-field", Fixture, 0);
  }

  /** A broken role locator is never healed by another role locator. */
  lemma FixtureRoleLocatorGetsNoRole()
    ensures forall s | s in SuggestHealing(NewHealer(NoOverrides), "getByRole('button')", Fixture) :: s.strategy.kind != Role
  {
    assert DetectType("getByRole('button')") == Role;
  }

  /** The fixture yields a role suggestion at 0.95 and a text suggestion below 0.7. */
  lemma FixtureConfidenceLevels()
    ensures exists s | s in SuggestHealing(NewHealer(NoOverrides), ".btn", Fixture) :: s.strategy.kind == Role && s.strategy.confidence == 0.95
    ensures exists s | s in SuggestHealing(NewHealer(NoOverrides), ".btn", Fixture) :: s.strategy.kind == Text && s.strategy.confidence == 0.6
  {
    NotGetByIsCss(".btn");
    FixtureButtonHasRoleAndText();
    RoleAndTextSuggested(NewHealer(NoOverrides), ".btn", Fixture);
  }

  /** With the default order, an element with a role and a text yields both suggestions at their table weights. */
  lemma RoleAndTextSuggested(config: HealerConfig, broken: string, snaps: seq<ElementSnapshot>)
    requires config.priorityOrder == DefaultPriorityOrder && DetectType(broken) == Css
    requires |snaps| > 0 && Satisfies(Role, snaps[0]) && Satisfies(Text, snaps[0])
    ensures exists s | s in SuggestHealing(config, broken, snaps) :: s.strategy.kind == Role && s.strategy.confidence == 0.95
    ensures exists s | s in SuggestHealing(config, broken, snaps) :: s.strategy.kind == Text && s.strategy.confidence == 0.6
  {
    assert Role in config.priorityOrder && Text in config.priorityOrder;
    KindIsSuggested(config, broken, snaps, Role, 0);
    KindIsSuggested(config, broken, snaps, Text, 0);
  }

  lemma FixtureButtonHasRoleAndText()
    ensures Satisfies(Role, Fixture[0]) && Satisfies(Text, Fixture[0])
  {
  }
}

=== FILE: ranking.dfy ===
/**
 The final ranking step of the healer (src/healer/locator-healer.ts:43):
 `Array.prototype.sort` with the comparator `b.confidence - a.confidence`.
 That sort is stable, so it is modelled as a stable insertion sort on
 sequences, highest confidence first.
 */
module Ranking {
  import opened Types

  function Confidence(s: HealingSuggestion): real
  {
    s.strategy.confidence
  }

  /** Non-increasing confidence from front to back. */
  predicate Sorted(s: seq<HealingSuggestion>)
  {
    forall i, j :: 0 <= i < j < |s| ==> Confidence(s[i]) >= Confidence(s[j])
  }

  /** The suggestions of confidence exactly `c`, in their order in `s`. */
  function WithConfidence(s: seq<HealingSuggestion>, c: real): (r: seq<HealingSuggestion>)
    ensures |r| <= |s|
    ensures forall i :: 0 <= i < |r| ==> Confidence(r[i]) == c
    decreases |s|
  {
    if s == [] then []
    else (if Confidence(s[0]) == c then [s[0]] else []) + WithConfidence(s[1..], c)
  }

  /** The kinds of a list of suggestions, in order. */
  function Kinds(s: seq<HealingSuggestion>): (r: seq<LocatorType>)
    ensures |r| == |s|
    ensures forall i :: 0 <= i < |s| ==> r[i] == s[i].strategy.kind
  {
    seq(|s|, i requires 0 <= i < |s| => s[i].strategy.kind)
  }

  /**
   Puts `x` in front of the first element whose confidence is not higher
   than its own, so that `x` stays ahead of the equal ones.
   */
  function Insert(x: HealingSuggestion, s: seq<HealingSuggestion>): (r: seq<HealingSuggestion>)
    requires Sorted(s)
    ensures Sorted(r)
    ensures multiset(r) == multiset(s) + multiset{x}
    ensures r[0] == x || (s != [] && r[0] == s[0])
    decreases |s|
  {
    if s == [] || Confidence(s[0]) <= Confidence(x) then
      ConsSorted(x, s);
      [x] + s
    else
      var rest := Insert(x, s[1..]);
      assert s == [s[0]] + s[1..];
      assert |s| > 1 ==> Confidence(s[1]) <= Confidence(s[0]);
      ConsSorted(s[0], rest);
      [s[0]] + rest
  }

  /** Putting in front an element no lower than every other keeps a list sorted. */
  lemma ConsSorted(h: HealingSuggestion, t: seq<HealingSuggestion>)
    requires Sorted(t)
    requires t != [] ==> Confidence(t[0]) <= Confidence(h)
    ensures Sorted([h] + t)
  {
    forall i, j | 0 <= i < j < |[h] + t|
      ensures Confidence(([h] + t)[i]) >= Confidence(([h] + t)[j])
    {
      assert ([h] + t)[j] == t[j - 1];
      if i > 0 {
        assert ([h] + t)[i] == t[i - 1];
      } else if j > 1 {
        assert Confidence(t[0]) >= Confidence(t[j - 1]);
      }
    }
  }

  /** The stable descending sort of the healer's result. */
  function SortByConfidence(s: seq<HealingSuggestion>): (r: seq<HealingSuggestion>)
    ensures Sorted(r)
    ensures multiset(r) == multiset(s)
    ensures |r| == |s|
    decreases |s|
  {
    if s == [] then []
    else
      assert s == [s[0]] + s[1..];
      Insert(s[0], SortByConfidence(s[1..]))
  }

  lemma SortedTail(s: seq<HealingSuggestion>)
    requires Sorted(s) && s != []
    ensures Sorted(s[1..])
  {
    forall i, j | 0 <= i < j < |s[1..]|
      ensures Confidence(s[1..][i]) >= Confidence(s[1..][j])
    {
      assert s[1..][i] == s[i + 1] && s[1..][j] == s[j + 1];
    }
  }

  /** The two cases of `Insert`, as equations. */
  lemma InsertUnfold(x: HealingSuggestion, s: seq<HealingSuggestion>)
    requires Sorted(s)
    ensures s == [] || Confidence(s[0]) <= Confidence(x) ==> Insert(x, s) == [x] + s
    ensures s != [] && Confidence(s[0]) > Confidence(x) ==>
      Sorted(s[1..]) && Insert(x, s) == [s[0]] + Insert(x, s[1..])
  {
    if s != [] {
      SortedTail(s);
    }
  }

  lemma WithConfidenceCons(h: HealingSuggestion, t: seq<HealingSuggestion>, c: real)
    ensures WithConfidence([h] + t, c) == (if Confidence(h) == c then [h] else []) + WithConfidence(t, c)
  {
    assert ([h] + t)[0] == h && ([h] + t)[1..] == t;
  }

  /** Inserting `x` adds it to its own confidence group, in front, and touches no other group. */
  lemma {:induction false} InsertIntoGroups(x: HealingSuggestion, s: seq<HealingSuggestion>, c: real)
    requires Sorted(s)
    ensures WithConfidence(Insert(x, s), c) == (if Confidence(x) == c then [x] else []) + WithConfidence(s, c)
    decreases |s|
  {
    InsertUnfold(x, s);
    if s == [] || Confidence(s[0]) <= Confidence(x) {
      WithConfidenceCons(x, s, c);
    } else {
      assert s == [s[0]] + s[1..];
      InsertIntoGroups(x, s[1..], c);
      GroupBehindHead(s[0], x, s[1..], Insert(x, s[1..]), c);
    }
  }

  /**
   When `x` ranks below `h`, placing `h` in front of both lists keeps `x`
   at the front of its confidence group.
   */
  lemma GroupBehindHead(h: HealingSuggestion, x: HealingSuggestion, t: seq<HealingSuggestion>,
                        inserted: seq<HealingSuggestion>, c: real)
    requires Confidence(h) > Confidence(x)
    requires WithConfidence(inserted, c) == (if Confidence(x) == c then [x] else []) + WithConfidence(t, c)
    ensures WithConfidence([h] + inserted, c) == (if Confidence(x) == c then [x] else []) + WithConfidence([h] + t, c)
  {
    WithConfidenceCons(h, inserted, c);
    WithConfidenceCons(h, t, c);
    if Confidence(x) == c {
      // then `h` is above the group of `c`
      assert WithConfidence([h] + inserted, c) == WithConfidence(inserted, c);
      assert WithConfidence([h] + t, c) == WithConfidence(t, c);
    } else {
      assert WithConfidence(inserted, c) == WithConfidence(t, c);
    }
  }

  /**
   Stability: sorting keeps, for every confidence value, the suggestions of
   that confidence in the order they had before.
   */
  lemma {:induction false} SortIsStable(s: seq<HealingSuggestion>, c: real)
    ensures WithConfidence(SortByConfidence(s), c) == WithConfidence(s, c)
    decreases |s|
  {
    if s != [] {
      SortIsStable(s[1..], c);
      InsertIntoGroups(s[0], SortByConfidence(s[1..]), c);
      WithConfidenceCons(s[0], s[1..], c);
      assert s == [s[0]] + s[1..];
    }
  }

  lemma KindsCons(h: HealingSuggestion, t: seq<HealingSuggestion>)
    ensures Kinds([h] + t) == [h.strategy.kind] + Kinds(t)
    ensures multiset(Kinds([h] + t)) == multiset{h.strategy.kind} + multiset(Kinds(t))
  {
    assert Kinds([h] + t) == [h.strategy.kind] + Kinds(t);
  }

  lemma KindsAppend(a: seq<HealingSuggestion>, b: seq<HealingSuggestion>)
    ensures Kinds(a + b) == Kinds(a) + Kinds(b)
    ensures multiset(Kinds(a + b)) == multiset(Kinds(a)) + multiset(Kinds(b))
  {
    assert Kinds(a + b) == Kinds(a) + Kinds(b);
  }

  /** Sorting permutes the kinds along with the suggestions. */
  lemma {:induction false} SortPermutesKinds(s: seq<HealingSuggestion>)
    ensures multiset(Kinds(SortByConfidence(s))) == multiset(Kinds(s))
    decreases |s|
  {
    if s != [] {
      var t := s[1..];
      assert s == [s[0]] + t;
      SortPermutesKinds(t);
      InsertPermutesKinds(s[0], SortByConfidence(t));
      KindsCons(s[0], t);
    }
  }

  lemma {:induction false} InsertPermutesKinds(x: HealingSuggestion, s: seq<HealingSuggestion>)
    requires Sorted(s)
    ensures multiset(Kinds(Insert(x, s))) == multiset(Kinds(s)) + multiset{x.strategy.kind}
    decreases |s|
  {
    InsertUnfold(x, s);
    if s == [] || Confidence(s[0]) <= Confidence(x) {
      KindsCons(x, s);
    } else {
      var t := s[1..];
      assert s == [s[0]] + t;
      InsertPermutesKinds(x, t);
      KindsCons(s[0], Insert(x, t));
      KindsCons(s[0], t);
    }
  }
}

=== FILE: snapshot_parser.dfy ===
/**
 The snapshot text parser of the automation adapter (`parseSnapshot` in
 src/core/playwright-cli.ts): every non-blank line of the form
 `ref content`, where the line matches `^(\w+)\s+(.+)$`, becomes one element
 snapshot whose accessibility fields are read from `key=value` pairs in the
 content.
 */
module SnapshotParser {
  import opened Wrappers
  import opened Types
  import opened Strings
  import Healer

  // ---- the line pattern ^(\w+)\s+(.+)$ ----

  /** `(.+)$` can match from `b`: at least one character, and no line terminator up to the end. */
  predicate ContentFrom(line: string, b: int)
  {
    0 <= b < |line| && forall t :: b <= t < |line| ==> !IsLineTerminator(line[t])
  }

  /** The line reads as a word run `[0, a)`, a white-space run `[a, b)` and content `[b, |line|)`. */
  ghost predicate LineShape(line: string, a: int, b: int)
  {
    && 0 < a < b
    && ContentFrom(line, b)
    && (forall t :: 0 <= t < a ==> IsWordChar(line[t]))
    && (forall t :: a <= t < b ==> IsWhitespace(line[t]))
  }

  /** The greatest content start in `(a, b]`: the greedy `\s+` gives back only what `(.+)` needs. */
  function LastContentStart(line: string, a: nat, b: nat): (q: Option<nat>)
    requires b <= |line|
    ensures q.Some? ==> a < q.value <= b && ContentFrom(line, q.value)
    ensures q.Some? ==> forall q' :: q.value < q' <= b ==> !ContentFrom(line, q')
    ensures q.None? ==> forall q' :: a < q' <= b ==> !ContentFrom(line, q')
    decreases b
  {
    if b <= a then None
    else if ContentFrom(line, b) then Some(b)
    else LastContentStart(line, a, b - 1)
  }

  /**
   The match of `^(\w+)\s+(.+)$` against one line: the reference and the
   content. It exists exactly when the line has that shape; the reference is
   the whole leading word run and the white space is as long as it can be.
   */
  function MatchLine(line: string): (m: Option<(string, string)>)
    ensures m.None? <==> forall a, b :: !LineShape(line, a, b)
    ensures m.Some? ==> LineShape(line, |m.value.0|, |line| - |m.value.1|)
    ensures m.Some? ==> m.value.0 == line[..|m.value.0|] && m.value.1 == line[|line| - |m.value.1|..]
    ensures m.Some? ==> forall a, b :: LineShape(line, a, b) ==> a == |m.value.0| && b <= |line| - |m.value.1|
  {
    var a := RunEnd(line, 0, Word);
    var e := if a == 0 then 0 else RunEnd(line, a, Space);
    ShapeIsBounded(line, a, e);
    if a == 0 then None
    else
      match LastContentStart(line, a, e)
      case None => None
      case Some(b) =>
        assert |line| - |line[b..]| == b;
        assert LineShape(line, a, b);
        Some((line[..a], line[b..]))
  }

  /** Any reading of the line splits it at the end of the word run, inside the white space after it. */
  lemma ShapeIsBounded(line: string, a: nat, e: nat)
    requires a == RunEnd(line, 0, Word)
    requires a > 0 ==> e == RunEnd(line, a, Space)
    ensures forall a', b' :: LineShape(line, a', b') ==> a > 0 && a' == a && a < b' <= e && ContentFrom(line, b')
  {
    forall a', b' | LineShape(line, a', b')
      ensures a > 0 && a' == a && a < b' <= e && ContentFrom(line, b')
    {
      RunReaches(line, 0, Word, a');
      assert IsWhitespace(line[a']);
      RunStops(line, 0, Word, a');
      RunReaches(line, a, Space, b');
    }
  }

  // ---- the field patterns key=(class+) ----

  /** `key` occurs at `i` and at least one `cls` character follows it. */
  predicate KeyAt(content: string, key: string, cls: CharClass, i: int)
  {
    OccursAt(content, key, i) && i + |key| < |content| && InClass(cls, content[i + |key|])
  }

  /** The leftmost index at or after `from` where `key` is followed by a `cls` character. */
  function FindKey(content: string, key: string, cls: CharClass, from: nat): (r: Option<nat>)
    requires from <= |content|
    ensures r.Some? ==> from <= r.value && KeyAt(content, key, cls, r.value)
    ensures r.Some? ==> forall j :: from <= j < r.value ==> !KeyAt(content, key, cls, j)
    ensures r.None? ==> forall j :: from <= j ==> !KeyAt(content, key, cls, j)
    decreases |content| - from
  {
    if KeyAt(content, key, cls, from) then Some(from)
    else if from == |content| then None
    else FindKey(content, key, cls, from + 1)
  }

  /**
   The first capture group of `content.match(/key=(cls+)/)`: the longest run
   of `cls` characters after the leftmost `key` that has one.
   */
  function Capture(content: string, key: string, cls: CharClass): (v: Option<string>)
    ensures v.None? <==> forall i :: !KeyAt(content, key, cls, i)
    ensures v.Some? ==> |v.value| > 0 && forall t :: 0 <= t < |v.value| ==> InClass(cls, v.value[t])
    ensures v.Some? ==> exists i :: (KeyAt(content, key, cls, i) && CapturedAt(content, key, cls, i, v.value)
      && forall j :: 0 <= j < i ==> !KeyAt(content, key, cls, j))
  {
    match FindKey(content, key, cls, 0)
    case None => None
    case Some(i) =>
      var p := i + |key|;
      var e := RunEnd(content, p, cls);
      var v := content[p..e];
      assert CapturedAt(content, key, cls, i, v);
      Some(v)
  }

  /** `v` is the whole `cls` run that follows `key` at `i`. */
  ghost predicate CapturedAt(content: string, key: string, cls: CharClass, i: int, v: string)
  {
    var p := i + |key|;
    0 <= i && p + |v| <= |content| && content[p..p + |v|] == v
      && (p + |v| == |content| || !InClass(cls, content[p + |v|]))
  }

  // ---- lines and snapshots ----

  /** The snapshot one line yields, when the line has the `ref content` shape. */
  function ParseLine(line: string): (r: Option<ElementSnapshot>)
    ensures r.Some? <==> MatchLine(line).Some?
    ensures r.Some? ==> Parsed(r.value) && r.value.ref == MatchLine(line).value.0
    ensures r.Some? ==> r.value.role == Capture(MatchLine(line).value.1, "role=", Word)
    ensures r.Some? ==> r.value.labelText == Capture(MatchLine(line).value.1, "label=", Token)
    ensures r.Some? ==> r.value.text == Capture(MatchLine(line).value.1, "text=", Token)
    ensures r.Some? ==> r.value.placeholder == Capture(MatchLine(line).value.1, "placeholder=", Token)
    ensures r.Some? ==> r.value.testId == Capture(MatchLine(line).value.1, "testid=", Token)
  {
    match MatchLine(line)
    case None => None
    case Some((ref, content)) =>
      Some(ElementSnapshot(
        ref, "unknown",
        Capture(content, "role=", Word),
        Capture(content, "label=", Token),
        Capture(content, "text=", Token),
        Capture(content, "placeholder=", Token),
        Capture(content, "testid=", Token),
        map[]))
  }

  /**
   The shape of every parsed snapshot: a non-empty word-character reference,
   tag `unknown`, no attributes, and every field that is set non-empty.
   */
  predicate Parsed(s: ElementSnapshot)
  {
    && |s.ref| > 0 && (forall t :: 0 <= t < |s.ref| ==> IsWordChar(s.ref[t]))
    && s.tag == "unknown" && s.attributes == map[]
    && (s.role.Some? ==> Present(s.role))
    && (s.labelText.Some? ==> Present(s.labelText))
    && (s.text.Some? ==> Present(s.text))
    && (s.placeholder.Some? ==> Present(s.placeholder))
    && (s.testId.Some? ==> Present(s.testId))
  }

  /** `lines.filter(l => l.trim())`. */
  function NonBlankLines(lines: seq<string>): (r: seq<string>)
    ensures |r| <= |lines|
    ensures forall l | l in r :: l in lines && !IsBlank(l)
    decreases |lines|
  {
    if lines == [] then []
    else (if IsBlank(lines[0]) then [] else [lines[0]]) + NonBlankLines(lines[1..])
  }

  /** The loop over the kept lines: every line that matches yields one snapshot, in line order. */
  function ParseLines(lines: seq<string>): (r: seq<ElementSnapshot>)
    ensures |r| <= |lines|
    ensures forall s | s in r :: Parsed(s)
    decreases |lines|
  {
    if lines == [] then []
    else Emitted(lines[0]) + ParseLines(lines[1..])
  }

  /** What one kept line adds to the result: its snapshot, or nothing. */
  function Emitted(line: string): (r: seq<ElementSnapshot>)
    ensures |r| <= 1 && forall s | s in r :: Parsed(s)
    ensures |r| == 1 <==> MatchLine(line).Some?
    ensures |r| == 1 ==> r[0].ref == MatchLine(line).value.0
  {
    match ParseLine(line)
    case None => []
    case Some(s) => [s]
  }

  /** `parseSnapshot`: at most one snapshot per non-blank line, each of the parsed shape. */
  function ParseSnapshot(output: string): (r: seq<ElementSnapshot>)
    ensures |r| <= |NonBlankLines(Split(output, '\n'))|
    ensures forall s | s in r :: Parsed(s)
  {
    ParseLines(NonBlankLines(Split(output, '\n')))
  }

  // ---- properties ----

  /** A blank line never has the `ref content` shape, so the blank-line filter drops nothing the pattern keeps. */
  lemma BlankLinesNeverMatch(line: string)
    requires IsBlank(line)
    ensures ParseLine(line).None?
  {
    forall a, b | 0 < a < b < |line|
      ensures !LineShape(line, a, b)
    {
      assert IsWhitespace(line[0]);
    }
    assert MatchLine(line).None?;
  }

  /** A line ending in a carriage return never matches, since `.` stops at it and `$` is the end of input. */
  lemma CarriageReturnLinesNeverMatch(line: string)
    requires |line| > 0 && line[|line| - 1] == '\r'
    ensures ParseLine(line).None?
  {
  }

  lemma {:induction false} NonBlankLinesAppend(a: seq<string>, b: seq<string>)
    ensures NonBlankLines(a + b) == NonBlankLines(a) + NonBlankLines(b)
    decreases |a|
  {
    if a != [] {
      assert (a + b)[0] == a[0] && (a + b)[1..] == a[1..] + b;
      NonBlankLinesAppend(a[1..], b);
    } else {
      assert a + b == b;
    }
  }

  /** The filter keeps a line exactly when it is not blank. */
  lemma NonBlankLinesOfOne(line: string)
    ensures NonBlankLines([line]) == if IsBlank(line) then [] else [line]
  {
    assert [line][1..] == [];
  }

  /** Every non-blank line survives the filter. */
  lemma {:induction false} NonBlankLinesKeepsEvery(lines: seq<string>, i: nat)
    requires i < |lines| && !IsBlank(lines[i])
    ensures lines[i] in NonBlankLines(lines)
    decreases |lines|
  {
    if i > 0 {
      NonBlankLinesKeepsEvery(lines[1..], i - 1);
      assert lines[1..][i - 1] == lines[i];
    }
  }

  lemma {:induction false} ParseLinesAppend(a: seq<string>, b: seq<string>)
    ensures ParseLines(a + b) == ParseLines(a) + ParseLines(b)
    decreases |a|
  {
    if a != [] {
      assert (a + b)[0] == a[0] && (a + b)[1..] == a[1..] + b;
      ParseLinesAppend(a[1..], b);
      assert ParseLines(a + b) == Emitted(a[0]) + ParseLines(a[1..] + b);
    } else {
      assert a + b == b;
    }
  }

  /**
   Lines are parsed independently and in order: the snapshots of two outputs
   joined by a newline are those of the first followed by those of the second.
   */
  lemma {:induction false} ParseSnapshotConcat(a: string, b: string)
    ensures ParseSnapshot(a + "\n" + b) == ParseSnapshot(a) + ParseSnapshot(b)
  {
    SplitConcat(a, b, '\n');
    NonBlankLinesAppend(Split(a, '\n'), Split(b, '\n'));
    ParseLinesAppend(NonBlankLines(Split(a, '\n')), NonBlankLines(Split(b, '\n')));
  }

  /** One line of output yields its own snapshot when it matches, and nothing otherwise. */
  lemma {:induction false} ParseSnapshotOfOneLine(line: string)
    requires '\n' !in line
    ensures ParseSnapshot(line) == Emitted(line)
  {
    SplitWithoutSeparator(line, '\n');
    if IsBlank(line) {
      BlankLinesNeverMatch(line);
    }
    assert NonBlankLines([line]) == if IsBlank(line) then [] else [line];
    assert ParseLines([line]) == Emitted(line) + ParseLines([]);
  }

  /** A blank line anywhere in the output changes nothing. */
  lemma {:induction false} BlankLineContributesNothing(a: string, line: string, b: string)
    requires IsBlank(line) && '\n' !in line
    ensures ParseSnapshot(a + "\n" + line + "\n" + b) == ParseSnapshot(a + "\n" + b)
  {
    var rest := line + "\n" + b;
    assert a + "\n" + line + "\n" + b == a + "\n" + rest;
    ParseSnapshotConcat(a, rest);
    ParseSnapshotConcat(line, b);
    ParseSnapshotOfOneLine(line);
    BlankLinesNeverMatch(line);
    assert ParseSnapshot(rest) == ParseSnapshot(b);
    ParseSnapshotConcat(a, b);
  }

  /** A parsed snapshot has no attributes, so no element of it supports a CSS locator. */
  lemma ParsedNeverSatisfiesCss(s: ElementSnapshot)
    requires Parsed(s)
    ensures !Healer.Satisfies(Css, s)
  {
  }

  /** Healing against a parsed page snapshot never proposes a CSS locator. */
  lemma HealingParsedSnapshotNeverSuggestsCss(config: HealerConfig, broken: string, output: string)
    ensures forall x | x in Healer.SuggestHealing(config, broken, ParseSnapshot(output)) :: x.strategy.kind != Css
  {
    var snaps := ParseSnapshot(output);
    forall x | x in Healer.SuggestHealing(config, broken, snaps)
      ensures x.strategy.kind != Css
    {
      if x.strategy.kind == Css {
        assert Healer.FindBestMatch(Css, snaps).Some?;
        var j :| 0 <= j < |snaps| && Healer.Satisfies(Css, snaps[j]);
        ParsedNeverSatisfiesCss(snaps[j]);
      }
    }
  }
}

=== FILE: strings.dfy ===
/**
 The string primitives the healer and generator take from JavaScript: `startsWith`,
 `includes`, `split`, `join`, `toLowerCase`, `trim`, and the character
 classes its regular expressions use (`\w`, `\s`, `.`, `[^,\s]`, `[^)]`).
 */
module Strings {
  import opened Wrappers

  /** `p` is a prefix of `s` (`s.startsWith(p)`). */
  predicate StartsWith(s: string, p: string)
  {
    |p| <= |s| && s[..|p|] == p
  }

  /** `p` is a suffix of `s` (`s.endsWith(p)`). */
  predicate EndsWith(s: string, p: string)
  {
    |p| <= |s| && s[|s| - |p|..] == p
  }

  /** `sub` occurs in `s` at index `i`. */
  predicate OccursAt(s: string, sub: string, i: int)
  {
    0 <= i && i + |sub| <= |s| && s[i..i + |sub|] == sub
  }

  /** An occurrence of `sub` at `i` needs the character at `i` to be the first of `sub`. */
  lemma FirstCharRulesOutOccurrence(s: string, sub: string, i: nat)
    requires |sub| > 0 && i < |s| && s[i] != sub[0]
    ensures !OccursAt(s, sub, i)
  {
    if i + |sub| <= |s| {
      assert s[i..i + |sub|][0] == s[i];
    }
  }

  /** An occurrence stays an occurrence in any slice that starts at it and covers it. */
  lemma OccursAtSliceStart(s: string, sub: string, i: nat, e: nat)
    requires OccursAt(s, sub, i) && i + |sub| <= e <= |s|
    ensures OccursAt(s[i..e], sub, 0)
  {
    assert s[i..e][0..|sub|] == s[i..i + |sub|];
  }

  /** `sub` occurs somewhere in `s`. */
  ghost predicate Contains(s: string, sub: string)
  {
    exists i :: 0 <= i <= |s| && OccursAt(s, sub, i)
  }

  lemma OccursInMiddle(a: string, b: string, c: string)
    ensures OccursAt(a + b + c, b, |a|)
    ensures Contains(a + b + c, b)
  {
    assert (a + b + c)[|a|..|a| + |b|] == b;
    assert OccursAt(a + b + c, b, |a|);
  }

  /** A string built as `h + b + f` starts with `h`, ends with `f` and holds `b` between them. */
  lemma ThreeParts(h: string, b: string, f: string)
    ensures |h + b + f| == |h| + |b| + |f|
    ensures StartsWith(h + b + f, h) && EndsWith(h + b + f, f)
    ensures (h + b + f)[|h|..|h + b + f| - |f|] == b
  {
    var s := h + b + f;
    assert s[..|h|] == h;
    assert s[|s| - |f|..] == f;
    assert s[|h|..|s| - |f|] == b;
  }

  /** A string that starts with `p` does not start with a `q` whose first character differs. */
  lemma FirstCharsDiffer(s: string, p: string, q: string)
    requires StartsWith(s, p) && |p| > 0 && |q| > 0 && p[0] != q[0]
    ensures !StartsWith(s, q)
  {
    assert s[0] == p[0];
  }

  lemma StartsWithAppend(a: string, b: string, p: string)
    requires StartsWith(a, p)
    ensures StartsWith(a + b, p)
  {
    assert (a + b)[..|p|] == a[..|p|];
  }

  /** A suffix of `b` is a suffix of `a + b`. */
  lemma EndsWithAppend(a: string, b: string, p: string)
    requires EndsWith(b, p)
    ensures EndsWith(a + b, p)
  {
    assert (a + b)[|a + b| - |p|..] == b[|b| - |p|..];
  }

  /** A prefix of a prefix is a prefix. */
  lemma PrefixOfPrefix(s: string, p: string, q: string)
    requires StartsWith(s, p + q)
    ensures StartsWith(s, p)
  {
    assert (p + q)[..|p|] == p;
  }

  /** Starting with a string that starts with `p` is starting with `p`. */
  lemma StartsWithTransitive(s: string, b: string, p: string)
    requires StartsWith(s, b) && StartsWith(b, p)
    ensures StartsWith(s, p)
  {
    assert s[..|p|] == s[..|b|][..|p|];
  }

  /** Strings that differ at a shared index are not prefixes of one another. */
  lemma DistinctAt(s: string, p: string, d: nat)
    requires d < |s| && d < |p| && s[d] != p[d]
    ensures !StartsWith(s, p)
  {
  }

  /** Two prefixes of one string: the shorter is a prefix of the longer. */
  lemma PrefixesOfOneString(s: string, a: string, b: string)
    requires StartsWith(s, a) && StartsWith(s, b) && |a| <= |b|
    ensures StartsWith(b, a)
  {
    assert b[..|a|] == s[..|b|][..|a|];
  }

  /** The leftmost occurrence of `sub` in `s` at or after `from`. */
  function IndexOfFrom(s: string, sub: string, from: nat): (r: Option<nat>)
    requires from <= |s|
    ensures r.Some? ==> from <= r.value && OccursAt(s, sub, r.value)
    ensures r.Some? ==> forall j :: from <= j < r.value ==> !OccursAt(s, sub, j)
    ensures r.None? ==> forall j :: from <= j <= |s| ==> !OccursAt(s, sub, j)
    decreases |s| - from
  {
    if OccursAt(s, sub, from) then Some(from)
    else if from == |s| then None
    else IndexOfFrom(s, sub, from + 1)
  }

  /** `s.includes(sub)`. */
  function Includes(s: string, sub: string): (b: bool)
    ensures b <==> Contains(s, sub)
  {
    IndexOfFrom(s, sub, 0).Some?
  }

  // ---- character classes ----

  /** `\w` without the `u` flag. */
  predicate IsWordChar(c: char)
  {
    'a' <= c <= 'z' || 'A' <= c <= 'Z' || '0' <= c <= '9' || c == '_'
  }

  /** The characters `.` refuses to match. */
  predicate IsLineTerminator(c: char)
  {
    c == '\n' || c == '\r' || c == '\U{2028}' || c == '\U{2029}'
  }

  /** `\s`, which is also the set `trim` removes: white space and line terminators. */
  predicate IsWhitespace(c: char)
  {
    || c == ' ' || c == '\t' || c == '\U{000B}' || c == '\U{000C}'
    || c == '\U{00A0}' || c == '\U{1680}' || ('\U{2000}' <= c <= '\U{200A}')
    || c == '\U{202F}' || c == '\U{205F}' || c == '\U{3000}' || c == '\U{FEFF}'
    || IsLineTerminator(c)
  }

  /** The character classes the healer's and generator's regular expressions run over. */
  datatype CharClass =
    | Word          // \w
    | Space         // \s
    | NonSpace      // [^\s]
    | Token         // [^,\s]
    | AnyInLine     // .
    | NotCloseParen // [^)]

  predicate InClass(cls: CharClass, c: char)
  {
    match cls
    case Word => IsWordChar(c)
    case Space => IsWhitespace(c)
    case NonSpace => !IsWhitespace(c)
    case Token => c != ',' && !IsWhitespace(c)
    case AnyInLine => !IsLineTerminator(c)
    case NotCloseParen => c != ')'
  }

  /** The end of the longest run of `cls` characters starting at `from` (a greedy `cls*`). */
  function RunEnd(s: string, from: nat, cls: CharClass): (e: nat)
    requires from <= |s|
    ensures from <= e <= |s|
    ensures forall t :: from <= t < e ==> InClass(cls, s[t])
    ensures e == |s| || !InClass(cls, s[e])
    decreases |s| - from
  {
    if from == |s| || !InClass(cls, s[from]) then from else RunEnd(s, from + 1, cls)
  }

  /** A run of `cls` characters up to `t` is inside the greedy run. */
  lemma RunReaches(s: string, from: nat, cls: CharClass, t: nat)
    requires from <= t <= |s|
    requires forall u :: from <= u < t ==> InClass(cls, s[u])
    ensures RunEnd(s, from, cls) >= t
  {
  }

  /** A run over a suffix made only of `cls` characters takes the whole suffix. */
  lemma RunToEnd(s: string, from: nat, cls: CharClass)
    requires from <= |s|
    requires forall u :: from <= u < |s| ==> InClass(cls, s[u])
    ensures s[from..RunEnd(s, from, cls)] == s[from..]
  {
    RunReaches(s, from, cls, |s|);
  }

  /** The greedy run stops at the first character outside `cls`. */
  lemma RunStops(s: string, from: nat, cls: CharClass, t: nat)
    requires from <= t < |s| && !InClass(cls, s[t])
    ensures RunEnd(s, from, cls) <= t
  {
  }

  /** `!s.trim()`: the string is empty or all white space. */
  predicate IsBlank(s: string)
  {
    forall i :: 0 <= i < |s| ==> IsWhitespace(s[i])
  }

  // ---- lower-casing ----

  /** The case folding of a `/i` regular expression without the `u` flag, on ASCII letters. */
  function AsciiLower(c: char): (d: char)
    ensures 'A' <= c <= 'Z' ==> 'a' <= d <= 'z' && d as int == c as int + 32
    ensures !('A' <= c <= 'Z') ==> d == c
  {
    if 'A' <= c <= 'Z' then (c as int + 32) as char else c
  }

  /**
   `toLowerCase` as far as ASCII words can tell: ASCII capitals and the Kelvin
   sign (U+212A, whose lower case is `k`) become ASCII letters, and every other
   character stays outside the ASCII letters.
   */
  function LowerChar(c: char): (d: char)
    ensures 'A' <= c <= 'Z' ==> d == AsciiLower(c)
    ensures c == '\U{212A}' ==> d == 'k'
    ensures !('A' <= c <= 'Z') && c != '\U{212A}' ==> d == c
  {
    if c == '\U{212A}' then 'k' else AsciiLower(c)
  }

  /** `s.toLowerCase()`, as it is used here: to look for lower-case ASCII words. */
  function ToLower(s: string): (r: string)
    ensures |r| == |s|
    ensures forall i :: 0 <= i < |s| ==> r[i] == LowerChar(s[i])
  {
    seq(|s|, i requires 0 <= i < |s| => LowerChar(s[i]))
  }

  /** `s` with ASCII letters folded to lower case. */
  function FoldAscii(s: string): (r: string)
    ensures |r| == |s|
    ensures forall i :: 0 <= i < |s| ==> r[i] == AsciiLower(s[i])
  {
    seq(|s|, i requires 0 <= i < |s| => AsciiLower(s[i]))
  }

  /** A `/i` match of the lower-case word `w` at index `i`. */
  predicate OccursAtIgnoringCase(s: string, w: string, i: int)
  {
    0 <= i && i + |w| <= |s| && FoldAscii(s[i..i + |w|]) == w
  }

  /** A `/i` match of `w` at `i` needs the character at `i` to fold to the first letter of `w`. */
  lemma FirstCharRulesOutWord(s: string, w: string, i: nat)
    requires |w| > 0 && i < |s| && AsciiLower(s[i]) != w[0]
    ensures !OccursAtIgnoringCase(s, w, i)
  {
    if i + |w| <= |s| {
      assert FoldAscii(s[i..i + |w|])[0] == AsciiLower(s[i]);
    }
  }

  /** Under `/i`, a character of `w` that is not a lower-case ASCII letter is matched only by itself. */
  lemma NonLetterMatchesItself(s: string, w: string, i: int, k: nat)
    requires OccursAtIgnoringCase(s, w, i) && k < |w| && !('a' <= w[k] <= 'z')
    ensures s[i + k] == w[k]
  {
    assert FoldAscii(s[i..i + |w|])[k] == AsciiLower(s[i + k]);
  }

  /** A character other than the non-letter `w[k]` where it should be rules out a `/i` match of `w`. */
  lemma NonLetterMismatch(s: string, w: string, i: int, k: nat)
    requires k < |w| && !('a' <= w[k] <= 'z')
    requires 0 <= i + k < |s| ==> s[i + k] != w[k]
    ensures !OccursAtIgnoringCase(s, w, i)
  {
    if OccursAtIgnoringCase(s, w, i) {
      NonLetterMatchesItself(s, w, i, k);
    }
  }

  /** A word without capitals matches itself under `/i`. */
  lemma ExactOccurrenceIgnoringCase(s: string, w: string, i: nat)
    requires OccursAt(s, w, i)
    requires forall k :: 0 <= k < |w| ==> !('A' <= w[k] <= 'Z')
    ensures OccursAtIgnoringCase(s, w, i)
  {
    assert FoldAscii(s[i..i + |w|]) == w;
  }

  // ---- split and join ----

  /** `parts.join(sep)`; the empty list joins to the empty string. */
  function Join(parts: seq<string>, sep: string): string
    decreases |parts|
  {
    if |parts| == 0 then []
    else if |parts| == 1 then parts[0]
    else parts[0] + sep + Join(parts[1..], sep)
  }

  /** A non-empty list joins into a string that starts with its first piece. */
  lemma {:induction false} JoinStarts(parts: seq<string>, sep: string)
    requires parts != []
    ensures StartsWith(Join(parts, sep), parts[0])
  {
    if |parts| > 1 {
      var first, tail := parts[0], parts[1..];
      var rest := Join(tail, sep);
      assert Join(parts, sep) == first + sep + rest;
      assert first + sep + rest == first + (sep + rest);
      assert (first + (sep + rest))[..|first|] == first;
    } else {
      assert parts[0][..|parts[0]|] == parts[0];
    }
  }

  /** A non-empty list joins into a string that ends with its last piece. */
  lemma {:induction false} JoinEndsLast(parts: seq<string>, sep: string)
    requires parts != []
    ensures EndsWith(Join(parts, sep), parts[|parts| - 1])
    decreases |parts|
  {
    if |parts| > 1 {
      var first, tail := parts[0], parts[1..];
      var rest := Join(tail, sep);
      assert Join(parts, sep) == first + sep + rest;
      JoinEndsLast(tail, sep);
      assert tail[|tail| - 1] == parts[|parts| - 1];
      EndsWithAppend(first + sep, rest, tail[|tail| - 1]);
    } else {
      var only := parts[0];
      assert only[|only| - |only|..] == only;
    }
  }

  /** Joining a list whose head grows by a leading character. */
  lemma JoinConsHead(c: char, parts: seq<string>, sep: string)
    requires |parts| >= 1
    ensures Join([[c] + parts[0]] + parts[1..], sep) == [c] + Join(parts, sep)
  {
    var q := [[c] + parts[0]] + parts[1..];
    assert q[1..] == parts[1..];
  }

  /** Joining two non-empty lists: the pieces of each, with one separator between them. */
  lemma {:induction false} JoinAppend(a: seq<string>, b: seq<string>, sep: string)
    requires |a| >= 1 && |b| >= 1
    ensures Join(a + b, sep) == Join(a, sep) + sep + Join(b, sep)
    decreases |a|
  {
    if |a| > 1 {
      assert (a + b)[1..] == a[1..] + b;
      JoinAppend(a[1..], b, sep);
    } else {
      assert (a + b)[1..] == b;
    }
  }

  /** `s.split(sep)` for a one-character separator. */
  function Split(s: string, sep: char): (parts: seq<string>)
    ensures |parts| >= 1
    ensures forall i :: 0 <= i < |parts| ==> sep !in parts[i]
    ensures Join(parts, [sep]) == s
    decreases |s|
  {
    if s == [] then [[]]
    else
      var rest := Split(s[1..], sep);
      if s[0] == sep then
        assert ([[]] + rest)[1..] == rest;
        [[]] + rest
      else
        JoinConsHead(s[0], rest, [sep]);
        [[s[0]] + rest[0]] + rest[1..]
  }

  /** Splitting a string with no separator in it gives that string alone. */
  lemma {:induction false} SplitWithoutSeparator(s: string, sep: char)
    requires sep !in s
    ensures Split(s, sep) == [s]
    decreases |s|
  {
    if s != [] {
      assert sep !in s[1..];
      SplitWithoutSeparator(s[1..], sep);
    }
  }

  /** One step of `Split` on a non-empty string. */
  lemma SplitUnfold(s: string, sep: char)
    requires s != []
    ensures s[0] == sep ==> Split(s, sep) == [[]] + Split(s[1..], sep)
    ensures s[0] != sep ==>
      Split(s, sep) == [[s[0]] + Split(s[1..], sep)[0]] + Split(s[1..], sep)[1..]
  {
  }

  /** Splitting distributes over a separator: the pieces of `a`, then those of `b`. */
  lemma {:induction false} SplitConcat(a: string, b: string, sep: char)
    ensures Split(a + [sep] + b, sep) == Split(a, sep) + Split(b, sep)
    decreases |a|
  {
    var s := a + [sep] + b;
    SplitUnfold(s, sep);
    if a == [] {
      assert s[0] == sep && s[1..] == b;
    } else {
      assert s[0] == a[0] && s[1..] == a[1..] + [sep] + b;
      var sa, sb := Split(a[1..], sep), Split(b, sep);
      SplitConcat(a[1..], b, sep);
      assert Split(s[1..], sep) == sa + sb;
      SplitUnfold(a, sep);
      if a[0] == sep {
        assert Split(s, sep) == [[]] + (sa + sb);
        assert Split(a, sep) == [[]] + sa;
      } else {
        SplitConcatHead(a[0], sa, sb);
      }
    }
  }

  lemma SplitConcatHead(c: char, sa: seq<string>, sb: seq<string>)
    requires |sa| >= 1
    ensures [[c] + (sa + sb)[0]] + (sa + sb)[1..] == ([[c] + sa[0]] + sa[1..]) + sb
  {
    assert (sa + sb)[1..] == sa[1..] + sb;
  }

  /** Join then split gives back the pieces, when no piece holds the separator. */
  lemma {:induction false} SplitJoin(parts: seq<string>, sep: char)
    requires |parts| >= 1
    requires forall i :: 0 <= i < |parts| ==> sep !in parts[i]
    ensures Split(Join(parts, [sep]), sep) == parts
    decreases |parts|
  {
    SplitWithoutSeparator(parts[0], sep);
    if |parts| > 1 {
      SplitJoin(parts[1..], sep);
      SplitConcat(parts[0], Join(parts[1..], [sep]), sep);
      assert [parts[0]] + parts[1..] == parts;
    }
  }

  /** `s.split(' ')[0]`: everything before the first space. */
  function FirstToken(s: string): (t: string)
    ensures StartsWith(s, t)
    ensures ' ' !in t
    ensures |t| == |s| || s[|t|] == ' '
  {
    var parts := Split(s, ' ');
    FirstPieceIsPrefix(s, ' ');
    parts[0]
  }

  /** The first piece of a split runs up to the first separator, or to the end. */
  lemma {:induction false} FirstPieceIsPrefix(s: string, sep: char)
    ensures StartsWith(s, Split(s, sep)[0])
    ensures |Split(s, sep)[0]| == |s| || s[|Split(s, sep)[0]|] == sep
    decreases |s|
  {
    if s != [] {
      SplitUnfold(s, sep);
      FirstPieceIsPrefix(s[1..], sep);
    }
  }
}

=== FILE: test_generator.dfy ===
/**
 The test generator (src/generator/test-generator.ts): plain-language steps
 are read one by one as a navigation, a click, a typing action or a comment,
 rendered as one line of a Playwright script in Java, TypeScript or
 JavaScript, and the locator calls of the finished script are collected.
 */
module TestGenerator {
  import opened Wrappers
  import opened Types
  import opened Strings
  import opened Classifier
  import Healer

  // ---- reading a step ----

  /** What one step is read as. A comment keeps the step's own text. */
  datatype Step =
    | Navigate(target: string)
    | Click(target: string)
    | Fill(target: string, value: string)
    | Comment(text: string)

  /** The lower-cased step asks for a navigation. */
  predicate IsNavigation(l: string)
  {
    Includes(l, "navigate") || Includes(l, "go to") || Includes(l, "open")
  }

  /** The lower-cased step asks for typing. */
  predicate IsTyping(l: string)
  {
    Includes(l, "type") || Includes(l, "fill")
  }

  // -- the address pattern (?:to |https?:\/\/)[^\s]+

  /** The alternative of `(?:to |https?:\/\/)` that occurs at `i`; at most one can. */
  function UrlPrefixAt(s: string, i: nat): (p: Option<string>)
    ensures p.Some? ==> OccursAt(s, p.value, i) && (p.value == "to " || p.value == "https://" || p.value == "http://")
    ensures p.None? ==> !OccursAt(s, "to ", i) && !OccursAt(s, "https://", i) && !OccursAt(s, "http://", i)
  {
    if OccursAt(s, "to ", i) then Some("to ")
    else if OccursAt(s, "https://", i) then Some("https://")
    else if OccursAt(s, "http://", i) then Some("http://")
    else None
  }

  /** The address pattern matches at `i`: a prefix and at least one non-space character after it. */
  predicate UrlAt(s: string, i: nat)
  {
    var p := UrlPrefixAt(s, i);
    p.Some? && i + |p.value| < |s| && !IsWhitespace(s[i + |p.value|])
  }

  /** Where a match of the address pattern at `i` ends: the non-space run is greedy. */
  function UrlEnd(s: string, i: nat): (e: nat)
    requires UrlAt(s, i)
    ensures i + |UrlPrefixAt(s, i).value| < e <= |s|
    ensures forall t :: i + |UrlPrefixAt(s, i).value| <= t < e ==> !IsWhitespace(s[t])
    ensures e == |s| || IsWhitespace(s[e])
  {
    RunEnd(s, i + |UrlPrefixAt(s, i).value|, NonSpace)
  }

  /** The leftmost start at or after `from` where the address pattern matches. */
  function FindUrl(s: string, from: nat): (r: Option<nat>)
    ensures r.Some? ==> from <= r.value && UrlAt(s, r.value)
    ensures r.Some? ==> forall j: nat :: from <= j < r.value ==> !UrlAt(s, j)
    ensures r.None? ==> forall j: nat :: from <= j ==> !UrlAt(s, j)
    decreases |s| - from
  {
    if UrlAt(s, from) then Some(from)
    else if from >= |s| then None
    else FindUrl(s, from + 1)
  }

  /** `step.match(/(?:to |https?:\/\/)[^\s]+/)?.[0]`. */
  function UrlMatch(s: string): (m: Option<string>)
    ensures m.None? <==> forall i: nat :: !UrlAt(s, i)
    ensures m.Some? ==> exists i: nat :: (UrlAt(s, i) && (forall j: nat :: j < i ==> !UrlAt(s, j))
      && m.value == s[i..UrlEnd(s, i)])
  {
    match FindUrl(s, 0)
    case None => None
    case Some(i) => Some(s[i..UrlEnd(s, i)])
  }

  /** `url.replace(/^(to |go to )/i, '')`. */
  function StripLeadingTo(u: string): (r: string)
    ensures EndsWith(u, r)
    ensures r != u ==>
      || (OccursAtIgnoringCase(u, "to ", 0) && r == u[3..])
      || (OccursAtIgnoringCase(u, "go to ", 0) && r == u[6..])
  {
    if OccursAtIgnoringCase(u, "to ", 0) then u[3..]
    else if OccursAtIgnoringCase(u, "go to ", 0) then u[6..]
    else u
  }

  /** The target of a navigation step: the address found in it, or the empty string. */
  function NavigationTarget(step: string): (t: string)
    ensures forall k :: 0 <= k < |t| ==> !IsWhitespace(t[k])
    ensures UrlMatch(step).None? ==> t == ""
    ensures UrlMatch(step).Some? ==>
      var u := UrlMatch(step).value; t == if StartsWith(u, "to ") then u[3..] else u
  {
    match UrlMatch(step)
    case None => ""
    case Some(u) =>
      UrlHasOnePossibleStrip(step);
      StripLeadingTo(u)
  }

  /** A spoken `to ` or `go to `, in any case, is stripped off again. */
  lemma StripsSpokenPrefix(x: string)
    ensures StripLeadingTo("to " + x) == x && StripLeadingTo("To " + x) == x
    ensures StripLeadingTo("go to " + x) == x && StripLeadingTo("Go To " + x) == x
  {
    ExactOccurrenceIgnoringCase("to " + x, "to ", 0);
    assert FoldAscii(("To " + x)[0..3]) == "to ";
    FirstCharRulesOutWord("go to " + x, "to ", 0);
    FirstCharRulesOutWord("Go To " + x, "to ", 0);
    ExactOccurrenceIgnoringCase("go to " + x, "go to ", 0);
    assert FoldAscii(("Go To " + x)[0..6]) == "go to ";
  }

  /** A matched address loses at most its `to ` prefix, and what remains holds no white space. */
  lemma UrlHasOnePossibleStrip(step: string)
    requires UrlMatch(step).Some?
    ensures var t := StripLeadingTo(UrlMatch(step).value); forall k :: 0 <= k < |t| ==> !IsWhitespace(t[k])
    ensures var u := UrlMatch(step).value; StripLeadingTo(u) == if StartsWith(u, "to ") then u[3..] else u
  {
    var i: nat :| UrlAt(step, i) && UrlMatch(step).value == step[i..UrlEnd(step, i)];
    StrippedUrlHasNoSpace(step, i);
    StripOfMatchedUrl(step, i);
  }

  lemma StrippedUrlHasNoSpace(s: string, i: nat)
    requires UrlAt(s, i)
    ensures var t := StripLeadingTo(s[i..UrlEnd(s, i)]); forall k :: 0 <= k < |t| ==> !IsWhitespace(t[k])
  {
    var u := s[i..UrlEnd(s, i)];
    var p := UrlPrefixAt(s, i).value;
    OccursAtSliceStart(s, p, i, UrlEnd(s, i));
    if p == "to " {
      ExactOccurrenceIgnoringCase(u, "to ", 0);
      assert StripLeadingTo(u) == u[3..];
      forall k | 0 <= k < |u[3..]|
        ensures !IsWhitespace(u[3..][k])
      {
        assert u[3..][k] == s[i + 3 + k];
      }
    } else {
      assert u[0] == 'h';
      FirstCharRulesOutWord(u, "to ", 0);
      FirstCharRulesOutWord(u, "go to ", 0);
      assert StripLeadingTo(u) == u;
      forall k | 0 <= k < |u|
        ensures !IsWhitespace(u[k])
      {
        if k < |p| {
          assert u[k] == p[k];
        } else {
          assert u[k] == s[i + k];
        }
      }
    }
  }

  /** Of a matched address only an exact lower-case `to ` is stripped: `go to ` never starts one. */
  lemma StripOfMatchedUrl(s: string, i: nat)
    requires UrlAt(s, i)
    ensures var u := s[i..UrlEnd(s, i)]; StripLeadingTo(u) == if StartsWith(u, "to ") then u[3..] else u
  {
    var u := s[i..UrlEnd(s, i)];
    var p := UrlPrefixAt(s, i).value;
    OccursAtSliceStart(s, p, i, UrlEnd(s, i));
    if p == "to " {
      ExactOccurrenceIgnoringCase(u, "to ", 0);
      assert StartsWith(u, "to ");
    } else {
      assert u[0] == 'h';
      FirstCharRulesOutWord(u, "to ", 0);
      FirstCharRulesOutWord(u, "go to ", 0);
      assert !StartsWith(u, "to ");
    }
  }

  // -- the typing pattern /(?:type|fill) (.+) (?:in|into|on) (.+)/i

  /** `(?:type|fill) ` at `i`, in any case. */
  predicate KeywordAt(s: string, i: nat)
  {
    OccursAtIgnoringCase(s, "type ", i) || OccursAtIgnoringCase(s, "fill ", i)
  }

  /** The length of ` (?:in|into|on) ` at `j`, in any case; at most one alternative can occur. */
  function SeparatorAt(s: string, j: nat): (n: Option<nat>)
    ensures n.Some? ==> n.value == 4 || n.value == 6
    ensures n.Some? ==> j + n.value <= |s|
  {
    if OccursAtIgnoringCase(s, " in ", j) then Some(4)
    else if OccursAtIgnoringCase(s, " into ", j) then Some(6)
    else if OccursAtIgnoringCase(s, " on ", j) then Some(4)
    else None
  }

  /**
   The typing pattern matches with its keyword at `i` and its separator at
   `j`: the value `s[i + 5..j]` and the start of the field after the
   separator are inside one line and neither is empty.
   */
  predicate FillAt(s: string, i: nat, j: nat)
  {
    && KeywordAt(s, i)
    && i + 5 < j <= |s|
    && (forall t :: i + 5 <= t < j ==> !IsLineTerminator(s[t]))
    && SeparatorAt(s, j).Some?
    && j + SeparatorAt(s, j).value < |s|
    && !IsLineTerminator(s[j + SeparatorAt(s, j).value])
  }

  /** The greatest separator position in `(i + 5, j]` that completes a match: `(.+)` is greedy. */
  function LastFill(s: string, i: nat, j: nat): (r: Option<nat>)
    ensures r.Some? ==> r.value <= j && FillAt(s, i, r.value)
    ensures forall j': nat :: j' <= j && (r.None? || r.value < j') ==> !FillAt(s, i, j')
    decreases j
  {
    if j <= i + 5 then None
    else if FillAt(s, i, j) then Some(j)
    else LastFill(s, i, j - 1)
  }

  /** The leftmost keyword position at or after `from` that starts a match, with its separator. */
  function FindFill(s: string, from: nat): (r: Option<(nat, nat)>)
    ensures r.Some? ==> from <= r.value.0 && FillAt(s, r.value.0, r.value.1)
    ensures r.Some? ==> forall j' :: r.value.1 < j' ==> !FillAt(s, r.value.0, j')
    ensures r.Some? ==> forall i', j' :: from <= i' < r.value.0 ==> !FillAt(s, i', j')
    ensures r.None? ==> forall i', j' :: from <= i' ==> !FillAt(s, i', j')
    decreases |s| - from
  {
    if from >= |s| then
      assert forall i', j' :: from <= i' ==> !FillAt(s, i', j');
      None
    else
      match LastFill(s, from, |s|)
      case Some(j) => Some((from, j))
      case None => FindFill(s, from + 1)
  }

  /** The match of the typing pattern with its keyword at `i` and separator at `j`, as the two groups. */
  ghost predicate FillMatchedAt(s: string, i: nat, j: nat, value: string, field: string)
  {
    && FillAt(s, i, j)
    && (forall i': nat, j': nat :: i' < i ==> !FillAt(s, i', j'))
    && (forall j' :: j < j' ==> !FillAt(s, i, j'))
    && value == s[i + 5..j]
    && var q := j + SeparatorAt(s, j).value;
       field == s[q..RunEnd(s, q, AnyInLine)]
  }

  /**
   `step.match(/(?:type|fill) (.+) (?:in|into|on) (.+)/i)`: the typed value
   and the field. The match starts at the leftmost keyword that can start one,
   the value runs to the last separator that still leaves a field, and the
   field runs to the end of the line.
   */
  function FillMatch(s: string): (m: Option<(string, string)>)
    ensures m.None? <==> forall i, j :: !FillAt(s, i, j)
    ensures m.Some? ==> exists i, j :: FillMatchedAt(s, i, j, m.value.0, m.value.1)
    ensures m.Some? ==> |m.value.0| > 0 && |m.value.1| > 0
  {
    match FindFill(s, 0)
    case None => None
    case Some((i, j)) =>
      var q := j + SeparatorAt(s, j).value;
      var field := s[q..RunEnd(s, q, AnyInLine)];
      assert FillMatchedAt(s, i, j, s[i + 5..j], field);
      Some((s[i + 5..j], field))
  }

  // -- choosing a locator for a target

  /** The kind `suggestLocator` picks for a lower-cased target. */
  function SuggestedKind(l: string): LocatorType
  {
    if Includes(l, "button") || Includes(l, "link") then Role
    else if Includes(l, "input") || Includes(l, "field") then Label
    else Text
  }

  /**
   `suggestLocator`: a `getBy…` call whose name or text is the target as a
   case-insensitive pattern. A button wins over a link, both name their role,
   and an input or a field is reached by its label.
   */
  function SuggestLocator(target: string): (r: string)
    ensures Contains(r, "/" + target + "/i")
    ensures Includes(ToLower(target), "button") ==> StartsWith(r, "getByRole('button', { name: ")
    ensures !Includes(ToLower(target), "button") && Includes(ToLower(target), "link") ==>
      StartsWith(r, "getByRole('link', { name: ")
    ensures !Includes(ToLower(target), "button") && !Includes(ToLower(target), "link") ==>
      (Includes(ToLower(target), "input") || Includes(ToLower(target), "field") ==> StartsWith(r, "getByLabel("))
    ensures !Includes(ToLower(target), "button") && !Includes(ToLower(target), "link") ==>
      (!Includes(ToLower(target), "input") && !Includes(ToLower(target), "field") ==> StartsWith(r, "getByText("))
  {
    SuggestCall(ToLower(target), target)
  }

  /** The call for a target whose lower-cased form is `l`. */
  function SuggestCall(l: string, target: string): (r: string)
    ensures Contains(r, "/" + target + "/i")
    ensures Includes(l, "button") ==> StartsWith(r, "getByRole('button', { name: ")
    ensures !Includes(l, "button") && Includes(l, "link") ==> StartsWith(r, "getByRole('link', { name: ")
    ensures !Includes(l, "button") && !Includes(l, "link") ==>
      (Includes(l, "input") || Includes(l, "field") ==> StartsWith(r, "getByLabel("))
    ensures !Includes(l, "button") && !Includes(l, "link") ==>
      (!Includes(l, "input") && !Includes(l, "field") ==> StartsWith(r, "getByText("))
  {
    var pattern := "/" + target + "/i";
    if Includes(l, "button") then CallAround("getByRole('button', { name: ", pattern, " })")
    else if Includes(l, "link") then CallAround("getByRole('link', { name: ", pattern, " })")
    else if Includes(l, "input") || Includes(l, "field") then CallAround("getByLabel(", pattern, ")")
    else CallAround("getByText(", pattern, ")")
  }

  /** `head + pattern + close`, which starts with its head and contains its pattern. */
  function CallAround(head: string, pattern: string, close: string): (r: string)
    ensures StartsWith(r, head) && Contains(r, pattern)
  {
    OccursInMiddle(head, pattern, close);
    StartsWithAppend(head, pattern + close, head);
    assert head + pattern + close == head + (pattern + close);
    head + pattern + close
  }

  /**
   The suggested call is of the first kind the target's words allow: role
   for a button or a link, label for an input or a field, text otherwise.
   */
  lemma SuggestedLocatorKind(target: string)
    ensures GeneratorDetectType(SuggestLocator(target)) == SuggestedKind(ToLower(target))
  {
    SuggestedCallKind(ToLower(target), target);
  }

  lemma SuggestedCallKind(l: string, target: string)
    ensures GeneratorDetectType(SuggestCall(l, target)) == SuggestedKind(l)
  {
    var r := SuggestCall(l, target);
    if Includes(l, "button") {
      MarkedPrefix(r, "getByRole('button', { name: ", "getByRole", 0);
    } else if Includes(l, "link") {
      MarkedPrefix(r, "getByRole('link', { name: ", "getByRole", 0);
    } else if Includes(l, "input") || Includes(l, "field") {
      MarkedPrefix(r, "getByLabel(", "getByLabel", 1);
    } else {
      MarkedPrefix(r, "getByText(", "getByText", 2);
    }
  }

  /** A call that starts with a head that starts with a marker is of the marker's kind. */
  lemma MarkedPrefix(r: string, head: string, marker: string, index: nat)
    requires StartsWith(r, head) && index < |GeneratorMarkers| && GeneratorMarkers[index].prefix == marker
    requires |marker| <= |head| && head[..|marker|] == marker
    ensures GeneratorDetectType(r) == GeneratorMarkers[index].kind
  {
    StartsWithTransitive(r, head, marker);
    CallIsClassified(r, index);
  }

  /**
   `parseStep`: navigation words win over a click, a click over typing, and
   typing counts only when the typing pattern matches; anything else is a
   comment.
   */
  function ParseStep(step: string): (p: Step)
    ensures p.Navigate? <==> IsNavigation(ToLower(step))
    ensures p.Click? <==> !IsNavigation(ToLower(step)) && Includes(ToLower(step), "click")
    ensures p.Fill? <==> (!IsNavigation(ToLower(step)) && !Includes(ToLower(step), "click")
      && IsTyping(ToLower(step)) && FillMatch(step).Some?)
    ensures p.Comment? ==> p.text == step
    ensures p.Navigate? ==> p.target == NavigationTarget(step)
    ensures p.Navigate? ==> forall k :: 0 <= k < |p.target| ==> !IsWhitespace(p.target[k])
    ensures p.Click? ==> p.target == SuggestLocator(step)
    ensures p.Fill? ==> p.value == FillMatch(step).value.0 && p.target == SuggestLocator(FillMatch(step).value.1)
  {
    var l := ToLower(step);
    if IsNavigation(l) then Navigate(NavigationTarget(step))
    else if Includes(l, "click") then Click(SuggestLocator(step))
    else if IsTyping(l) && FillMatch(step).Some? then
      var m := FillMatch(step).value;
      Fill(SuggestLocator(m.1), m.0)
    else Comment(step)
  }

  // ---- rendering ----

  /** `a + b + c` ends with `b + c`. */
  lemma Suffixed(a: string, b: string, c: string)
    ensures EndsWith(a + b + c, b + c)
  {
    assert a + b + c == a + (b + c);
  }

  /** One step as a line of Java (`javaStep`). */
  function JavaLine(p: Step): (line: string)
    ensures p.Comment? ==> StartsWith(line, "// ")
    ensures !p.Comment? ==> StartsWith(line, "page.") && EndsWith(line, ";")
    ensures p.Fill? ==> EndsWith(line, "fill(\"" + p.value + "\");")
    ensures p.Navigate? ==> line == "page.navigate(\"" + p.target + "\");"
    ensures p.Click? ==> line == "page.locator(\"" + p.target + "\").click();"
    ensures p.Fill? ==> line == "page.locator(\"" + p.target + "\").fill(\"" + p.value + "\");"
    ensures p.Comment? ==> line == "// " + p.text
  {
    match p
    case Navigate(t) => Statement("page.", "page.navigate(\"", t, "\");")
    case Click(t) => Statement("page.", "page.locator(\"", t, "\").click();")
    case Fill(t, v) => ValueStatement("page.", "page.locator(\"", t, "\").fill(\"", "fill(\"", v, "\");")
    case Comment(text) => "// " + text
  }

  /** One step as a line of TypeScript or JavaScript (`tsStep`). */
  function ScriptLine(p: Step): (line: string)
    ensures p.Comment? ==> StartsWith(line, "// ")
    ensures !p.Comment? ==> StartsWith(line, "await page.") && EndsWith(line, ";")
    ensures p.Fill? ==> EndsWith(line, "fill('" + p.value + "');")
    ensures p.Click? ==> EndsWith(line, "').click();")
    ensures p.Navigate? ==> line == "await page.goto('" + p.target + "');"
    ensures p.Click? ==> line == "await page.locator('" + p.target + "').click();"
    ensures p.Fill? ==> line == "await page.locator('" + p.target + "').fill('" + p.value + "');"
    ensures p.Comment? ==> line == "// " + p.text
  {
    match p
    case Navigate(t) => Statement("await page.", "await page.goto('", t, "');")
    case Click(t) =>
      Suffixed("await page.locator('", t, "').click();");
      Statement("await page.", "await page.locator('", t, "').click();")
    case Fill(t, v) => ValueStatement("await page.", "await page.locator('", t, "').fill('", "fill('", v, "');")
    case Comment(text) => "// " + text
  }

  /**
   A `page` call statement with two interpolations, a target and a value:
   `head + t + mid + v + close`, where `mid` ends with the call `verb`.
   */
  function ValueStatement(opening: string, head: string, t: string, mid: string, verb: string, v: string, close: string)
    : (line: string)
    requires StartsWith(head, opening) && EndsWith(mid, verb) && EndsWith(close, ";")
    ensures line == head + t + mid + v + close
    ensures StartsWith(line, opening) && EndsWith(line, ";") && EndsWith(line, verb + v + close)
  {
    var front := head + t + mid;
    StartsWithAppend(head, t + mid, opening);
    assert front == head + (t + mid);
    var cut := |mid| - |verb|;
    assert front == (head + t + mid[..cut]) + verb by {
      assert mid == mid[..cut] + verb;
    }
    Suffixed(head + t + mid[..cut], verb + v, close);
    assert front + v + close == (head + t + mid[..cut]) + (verb + v) + close;
    Statement(opening, front, v, close)
  }

  /** A `page` call statement `head + arg + tail`, opening with `opening`. */
  function Statement(opening: string, head: string, arg: string, tail: string): (line: string)
    requires StartsWith(head, opening) && EndsWith(tail, ";")
    ensures line == head + arg + tail
    ensures StartsWith(line, opening) && EndsWith(line, ";")
  {
    StartsWithAppend(head, arg + tail, opening);
    assert head + arg + tail == head + (arg + tail);
    EndsWithAppend(head + arg, tail, ";");
    head + arg + tail
  }

  /**
   The line of one step in the chosen language. A line is a comment exactly
   when the step was read as one, and then it carries the step verbatim;
   every other line is a `page` call statement.
   */
  function StepLine(lang: Language, step: string): (line: string)
    ensures StartsWith(line, "// ") <==> ParseStep(step).Comment?
    ensures ParseStep(step).Comment? ==> line == "// " + step
    ensures !ParseStep(step).Comment? && lang == Java ==> StartsWith(line, "page.") && EndsWith(line, ";")
    ensures !ParseStep(step).Comment? && lang != Java ==> StartsWith(line, "await page.") && EndsWith(line, ";")
  {
    var p := ParseStep(step);
    var line := if lang == Java then JavaLine(p) else ScriptLine(p);
    if !p.Comment? then
      FirstCharsDiffer(line, if lang == Java then "page." else "await page.", "// ");
      line
    else line
  }

  /** Every step rendered by `render`, in step order (`steps.map(render)`). */
  function MapSteps(render: string -> string, steps: seq<string>): (lines: seq<string>)
    ensures |lines| == |steps|
    decreases |steps|
  {
    if steps == [] then [] else [render(steps[0])] + MapSteps(render, steps[1..])
  }

  /** The line at index `i` is the rendering of step `i`. */
  lemma {:induction false} MapStepsAt(render: string -> string, steps: seq<string>, i: nat)
    requires i < |steps|
    ensures MapSteps(render, steps)[i] == render(steps[i])
    decreases |steps|
  {
    if i > 0 {
      MapStepsAt(render, steps[1..], i - 1);
    }
  }

  /** Mapping distributes over concatenation. */
  lemma {:induction false} MapStepsAppend(render: string -> string, a: seq<string>, b: seq<string>)
    ensures MapSteps(render, a + b) == MapSteps(render, a) + MapSteps(render, b)
    decreases |a|
  {
    if a == [] {
      assert a + b == b;
    } else {
      assert (a + b)[0] == a[0] && (a + b)[1..] == a[1..] + b;
      MapStepsAppend(render, a[1..], b);
    }
  }

  /** The renderer of one language. */
  function Renderer(lang: Language): string -> string
  {
    step => StepLine(lang, step)
  }

  /** The lines of all steps, in step order. */
  function StepLines(lang: Language, steps: seq<string>): (lines: seq<string>)
    ensures |lines| == |steps|
  {
    MapSteps(Renderer(lang), steps)
  }

  /** The line at index `i` is the line of step `i`: one line per step, in step order. */
  lemma StepLineAt(lang: Language, steps: seq<string>, i: nat)
    requires i < |steps|
    ensures StepLines(lang, steps)[i] == StepLine(lang, steps[i])
  {
    MapStepsAt(Renderer(lang), steps, i);
  }

  /** The indentation the lines are joined with. */
  function LineSeparator(lang: Language): string
  {
    if lang == Java then "\n    " else "\n  "
  }

  /** The script body: the step lines joined (`steps.map(...).join(...)`). */
  function Body(lang: Language, steps: seq<string>): string
  {
    Join(StepLines(lang, steps), LineSeparator(lang))
  }

  /** The first words of each language's script. */
  const JavaPackage: string := "package com.example.tests;"
  const TypeScriptImport: string := "import { test, expect }"
  const JavaScriptRequire: string := "const { test, expect }"

  const JavaHeader: string := JavaPackage +
    "\n\nimport com.microsoft.playwright.*;\nimport org.junit.jupiter.api.Test;\n"
    + "import static org.junit.jupiter.api.Assertions.*;\n\npublic class GeneratedTest {\n  @Test\n"
    + "  public void test() {\n    try (Playwright playwright = Playwright.create()) {\n"
    + "      Browser browser = playwright.chromium().launch();\n      Page page = browser.newPage();\n      "

  const JavaFooter: string := "\n      browser.close();\n    }\n  }\n}"

  /** The module import of a TypeScript file and the `require` of a JavaScript one. */
  function ImportLine(lang: Language): string
  {
    if lang == TypeScript then TypeScriptImport + " from '@playwright/test';\n"
    else JavaScriptRequire + " = require('@playwright/test');\n"
  }

  function Header(lang: Language): string
  {
    if lang == Java then JavaHeader
    else ImportLine(lang) + "test('generated test', async ({ page }) => {\n  "
  }

  function Footer(lang: Language): string
  {
    if lang == Java then JavaFooter else "\n});"
  }

  /** `buildJava` and `buildTypeScript`: the body between the language's header and footer. */
  function BuildCode(lang: Language, steps: seq<string>): (code: string)
    ensures |code| == |Header(lang)| + |Body(lang, steps)| + |Footer(lang)|
    ensures StartsWith(code, Header(lang)) && EndsWith(code, Footer(lang))
    ensures code[|Header(lang)|..|code| - |Footer(lang)|] == Body(lang, steps)
  {
    ThreeParts(Header(lang), Body(lang, steps), Footer(lang));
    Header(lang) + Body(lang, steps) + Footer(lang)
  }

  /** The words a script of each language opens with. */
  function Opening(lang: Language): string
  {
    match lang
    case Java => JavaPackage
    case TypeScript => TypeScriptImport
    case JavaScript => JavaScriptRequire
  }

  lemma HeaderOpens(lang: Language)
    ensures StartsWith(Header(lang), Opening(lang))
  {
    match lang {
      case Java =>
        StartsWithAppend(JavaPackage, JavaHeader[|JavaPackage|..], JavaPackage);
        assert JavaPackage + JavaHeader[|JavaPackage|..] == JavaHeader;
      case TypeScript =>
        StartsWithAppend(TypeScriptImport, " from '@playwright/test';\n", TypeScriptImport);
        StartsWithAppend(ImportLine(lang), "test('generated test', async ({ page }) => {\n  ", TypeScriptImport);
      case JavaScript =>
        StartsWithAppend(JavaScriptRequire, " = require('@playwright/test');\n", JavaScriptRequire);
        StartsWithAppend(ImportLine(lang), "test('generated test', async ({ page }) => {\n  ", JavaScriptRequire);
    }
  }

  /**
   The first line tells the three languages apart: a Java script starts with
   its package clause, a TypeScript one with an `import`, a JavaScript one
   with a `require` binding.
   */
  lemma ScriptRevealsLanguage(lang: Language, steps: seq<string>)
    ensures StartsWith(BuildCode(lang, steps), JavaPackage) <==> lang == Java
    ensures StartsWith(BuildCode(lang, steps), TypeScriptImport) <==> lang == TypeScript
    ensures StartsWith(BuildCode(lang, steps), JavaScriptRequire) <==> lang == JavaScript
  {
    var code := BuildCode(lang, steps);
    HeaderOpens(lang);
    StartsWithTransitive(code, Header(lang), Opening(lang));
    OpeningDecides(code, lang);
  }

  /** The opening words of the three languages differ in their first character. */
  lemma OpeningDecides(code: string, lang: Language)
    requires StartsWith(code, Opening(lang))
    ensures StartsWith(code, JavaPackage) <==> lang == Java
    ensures StartsWith(code, TypeScriptImport) <==> lang == TypeScript
    ensures StartsWith(code, JavaScriptRequire) <==> lang == JavaScript
  {
    if lang != Java {
      FirstCharsDiffer(code, Opening(lang), JavaPackage);
    }
    if lang != TypeScript {
      FirstCharsDiffer(code, Opening(lang), TypeScriptImport);
    }
    if lang != JavaScript {
      FirstCharsDiffer(code, Opening(lang), JavaScriptRequire);
    }
  }

  /**
   Steps render independently and in order: the body of two non-empty step
   lists is the body of the first, the line separator, and the body of the
   second.
   */
  lemma {:induction false} BodyOfConcatenation(lang: Language, a: seq<string>, b: seq<string>)
    requires |a| >= 1 && |b| >= 1
    ensures Body(lang, a + b) == Body(lang, a) + LineSeparator(lang) + Body(lang, b)
  {
    StepLinesAppend(lang, a, b);
    JoinAppend(StepLines(lang, a), StepLines(lang, b), LineSeparator(lang));
  }

  lemma StepLinesAppend(lang: Language, a: seq<string>, b: seq<string>)
    ensures StepLines(lang, a + b) == StepLines(lang, a) + StepLines(lang, b)
  {
    MapStepsAppend(Renderer(lang), a, b);
  }

  /** A single step's body is its own line. */
  lemma BodyOfOneStep(lang: Language, step: string)
    ensures Body(lang, [step]) == StepLine(lang, step)
  {
    assert StepLines(lang, [step]) == [StepLine(lang, step)];
  }

  /** `generate`: the script for the request's steps and language, its locator calls, and no errors. */
  function Generate(request: TestGenerationRequest): (r: TestGenerationResult)
    ensures r.errors == []
    ensures StartsWith(r.code, Header(request.language)) && EndsWith(r.code, Footer(request.language))
    ensures forall l | l in r.locators ::
      (l.confidence == 0.8 && Contains(r.code, l.selector) && l.kind == Healer.DetectType(l.selector))
    ensures r.code == BuildCode(request.language, request.steps)
    ensures r.locators == ExtractLocators(r.code)
  {
    var code := BuildCode(request.language, request.steps);
    TestGenerationResult(code, ExtractLocators(code), [])
  }

  // ---- collecting the locator calls of a script ----

  /** The call prefixes `extractLocators` searches for, in its order. */
  const CallPrefixes: seq<string> :=
    ["getByRole(", "getByLabel(", "getByText(", "getByPlaceholder(", "getByTestId(", "locator("]

  /** `prefix[^)]+\)` matches at `i`: the prefix, then a non-empty run without `)`, then `)`. */
  predicate CallAt(code: string, prefix: string, i: nat)
  {
    && OccursAt(code, prefix, i)
    && i + |prefix| < |code| && code[i + |prefix|] != ')'
    && RunEnd(code, i + |prefix|, NotCloseParen) < |code|
  }

  /** Where the call matched at `i` ends, just past its first `)`. */
  function CallEnd(code: string, prefix: string, i: nat): (e: nat)
    requires CallAt(code, prefix, i)
    ensures i + |prefix| + 1 < e <= |code| && code[e - 1] == ')'
    ensures forall t :: i + |prefix| <= t < e - 1 ==> code[t] != ')'
  {
    RunEnd(code, i + |prefix|, NotCloseParen) + 1
  }

  /** No match of the pattern starts in `[lo, hi)`. */
  ghost predicate NoCallIn(code: string, prefix: string, lo: int, hi: int)
  {
    forall i: nat :: lo <= i < hi ==> !CallAt(code, prefix, i)
  }

  /**
   `spans` is what a global (`/g`) scan from `from` finds: the leftmost match
   at or after `from`, then the scan from its end, until no match is left.
   */
  ghost predicate GlobalScan(code: string, prefix: string, from: nat, spans: seq<(nat, nat)>)
    decreases |spans|
  {
    if spans == [] then NoCallIn(code, prefix, from, |code| + 1)
    else
      && from <= spans[0].0
      && NoCallIn(code, prefix, from, spans[0].0)
      && CallAt(code, prefix, spans[0].0)
      && spans[0].1 == CallEnd(code, prefix, spans[0].0)
      && GlobalScan(code, prefix, spans[0].1, spans[1..])
  }

  /** The spans of the matches of `prefix[^)]+\)` at or after `from`, left to right. */
  function CallSpans(code: string, prefix: string, from: nat): (r: seq<(nat, nat)>)
    requires from <= |code|
    ensures GlobalScan(code, prefix, from, r)
    decreases |code| - from
  {
    if from == |code| then
      assert !CallAt(code, prefix, from);
      []
    else if CallAt(code, prefix, from) then
      var e := CallEnd(code, prefix, from);
      var rest := CallSpans(code, prefix, e);
      assert ([(from, e)] + rest)[1..] == rest;
      [(from, e)] + rest
    else
      var r := CallSpans(code, prefix, from + 1);
      ScanFromEarlier(code, prefix, from, r);
      r
  }

  /** A scan may start one position earlier when no match starts there. */
  lemma ScanFromEarlier(code: string, prefix: string, from: nat, spans: seq<(nat, nat)>)
    requires !CallAt(code, prefix, from)
    requires GlobalScan(code, prefix, from + 1, spans)
    ensures GlobalScan(code, prefix, from, spans)
  {
  }

  /** Every span of a scan is a match that starts where the previous one ended or later. */
  lemma {:induction false} ScanSpansAreMatches(code: string, prefix: string, from: nat, spans: seq<(nat, nat)>, k: nat)
    requires GlobalScan(code, prefix, from, spans)
    requires k < |spans|
    ensures from <= spans[k].0 && CallAt(code, prefix, spans[k].0) && spans[k].1 == CallEnd(code, prefix, spans[k].0)
    ensures k + 1 < |spans| ==> spans[k].1 <= spans[k + 1].0
    decreases |spans|
  {
    if k > 0 {
      ScanSpansAreMatches(code, prefix, spans[0].1, spans[1..], k - 1);
      assert spans[1..][k - 1] == spans[k];
      if k + 1 < |spans| {
        assert spans[1..][k] == spans[k + 1];
      }
    } else if |spans| > 1 {
      ScanSpansAreMatches(code, prefix, spans[0].1, spans[1..], 0);
      assert spans[1..][0] == spans[1];
    }
  }

  /** The text of one matched call: the prefix, the arguments and the closing parenthesis. */
  lemma MatchedCallText(code: string, prefix: string, i: nat)
    requires CallAt(code, prefix, i)
    ensures var m := code[i..CallEnd(code, prefix, i)];
      StartsWith(m, prefix) && Contains(code, m) && EndsWith(m, ")")
  {
    var e := CallEnd(code, prefix, i);
    var m := code[i..e];
    assert OccursAt(code, m, i);
    assert m[..|prefix|] == code[i..i + |prefix|];
    assert m[|m| - 1] == code[e - 1];
  }

  /** `ms` holds, in order, the text of `code` under each of `spans`. */
  predicate SpanTexts(code: string, spans: seq<(nat, nat)>, ms: seq<string>)
  {
    && |ms| == |spans|
    && forall k :: 0 <= k < |spans| ==>
      spans[k].0 <= spans[k].1 <= |code| && ms[k] == code[spans[k].0..spans[k].1]
  }

  /** `code.match(/prefix[^)]+\)/g)`: the matched texts, left to right. */
  function CallMatches(code: string, prefix: string): (ms: seq<string>)
    ensures SpanTexts(code, CallSpans(code, prefix, 0), ms)
    ensures forall m | m in ms :: StartsWith(m, prefix) && Contains(code, m) && EndsWith(m, ")")
  {
    var spans := CallSpans(code, prefix, 0);
    forall k | 0 <= k < |spans|
      ensures spans[k].0 <= spans[k].1 <= |code|
    {
      ScanSpansAreMatches(code, prefix, 0, spans, k);
    }
    var ms := seq(|spans|, k requires 0 <= k < |spans| => code[spans[k].0..spans[k].1]);
    forall m | m in ms
      ensures StartsWith(m, prefix) && Contains(code, m) && EndsWith(m, ")")
    {
      var k :| 0 <= k < |spans| && m == ms[k];
      ScanSpansAreMatches(code, prefix, 0, spans, k);
      MatchedCallText(code, prefix, spans[k].0);
    }
    ms
  }

  /** The locators of one pattern, each with the fixed confidence 0.8. */
  function LocatorsOf(code: string, prefix: string): (r: seq<LocatorStrategy>)
    ensures |r| == |CallSpans(code, prefix, 0)|
    ensures forall k :: 0 <= k < |r| ==> r[k].selector == CallMatches(code, prefix)[k]
    ensures forall l | l in r :: (l.confidence == 0.8 && StartsWith(l.selector, prefix)
      && Contains(code, l.selector) && l.kind == GeneratorDetectType(l.selector))
  {
    var ms := CallMatches(code, prefix);
    seq(|ms|, k requires 0 <= k < |ms| => LocatorStrategy(GeneratorDetectType(ms[k]), ms[k], 0.8))
  }

  /** The patterns' locators, pattern by pattern. */
  function LocatorsOfAll(code: string, prefixes: seq<string>): (r: seq<LocatorStrategy>)
    ensures forall l | l in r :: (l.confidence == 0.8 && Contains(code, l.selector)
      && l.kind == GeneratorDetectType(l.selector)
      && exists p :: p in prefixes && StartsWith(l.selector, p))
    decreases |prefixes|
  {
    if prefixes == [] then []
    else LocatorsOf(code, prefixes[0]) + LocatorsOfAll(code, prefixes[1..])
  }

  /**
   `extractLocators`: every match of the six call patterns in the script,
   classified and given confidence 0.8; the generator's classification agrees
   with the healer's.
   */
  function ExtractLocators(code: string): (r: seq<LocatorStrategy>)
    ensures r == LocatorsOf(code, "getByRole(") + LocatorsOf(code, "getByLabel(")
      + LocatorsOf(code, "getByText(") + LocatorsOf(code, "getByPlaceholder(")
      + LocatorsOf(code, "getByTestId(") + LocatorsOf(code, "locator(")
    ensures forall l | l in r :: (l.confidence == 0.8 && Contains(code, l.selector)
      && l.kind == Healer.DetectType(l.selector)
      && exists p :: p in CallPrefixes && StartsWith(l.selector, p))
  {
    var r := LocatorsOfAll(code, CallPrefixes);
    PatternByPattern(code);
    forall l | l in r
      ensures l.kind == Healer.DetectType(l.selector)
    {
      DetectTypesAgree(l.selector);
    }
    r
  }

  /** The six patterns' locators are concatenated in the order of `CallPrefixes`. */
  lemma PatternByPattern(code: string)
    ensures LocatorsOfAll(code, CallPrefixes) == LocatorsOf(code, "getByRole(") + LocatorsOf(code, "getByLabel(")
      + LocatorsOf(code, "getByText(") + LocatorsOf(code, "getByPlaceholder(")
      + LocatorsOf(code, "getByTestId(") + LocatorsOf(code, "locator(")
  {
    SixBlocks(code, CallPrefixes);
  }

  /** Over six patterns, `LocatorsOfAll` is the six blocks one after another. */
  lemma SixBlocks(code: string, p: seq<string>)
    requires |p| == 6
    ensures LocatorsOfAll(code, p) == LocatorsOf(code, p[0]) + LocatorsOf(code, p[1])
      + LocatorsOf(code, p[2]) + LocatorsOf(code, p[3]) + LocatorsOf(code, p[4]) + LocatorsOf(code, p[5])
  {
    var all := q => LocatorsOfAll(code, q);
    var one := x => LocatorsOf(code, x);
    forall q: seq<string> | q != []
      ensures all(q) == one(q[0]) + all(q[1..])
    {
    }
    SixOf(all, one, p);
  }

  /**
   A concatenation over a list, `all`, given by the block `one` of its head
   followed by `all` of its tail, is over six elements the six blocks in order.
   */
  lemma SixOf<T>(all: seq<string> -> seq<T>, one: string -> seq<T>, p: seq<string>)
    requires forall q: seq<string> :: q != [] ==> all(q) == one(q[0]) + all(q[1..])
    requires |p| == 6
    ensures all(p) == one(p[0]) + one(p[1]) + one(p[2]) + one(p[3]) + one(p[4]) + one(p[5]) + all([])
  {
    assert p[1..][1..] == p[2..];
    assert p[2..][1..] == p[3..];
    assert p[3..][1..] == p[4..];
    assert p[4..][1..] == p[5..];
    assert p[5..][1..] == [];
    var a, b, c, d, e, f := one(p[0]), one(p[1]), one(p[2]), one(p[3]), one(p[4]), one(p[5]);
    assert all(p) == a + (b + (c + (d + (e + (f + all([]))))));
  }

  // ---- the generator's classification ----

  /** The markers `detectType` of the generator tests, in its order. */
  const GeneratorMarkers: seq<Marker> := [
    Marker("getByRole", Role),
    Marker("getByLabel", Label),
    Marker("getByText", Text),
    Marker("getByPlaceholder", Placeholder),
    Marker("getByTestId", TestId)
  ]

  lemma GeneratorMarkersArePrefixFree()
    ensures PrefixFree(GeneratorMarkers)
  {
    var t := GeneratorMarkers;
    forall i, j | 0 <= i < |t| && 0 <= j < |t| && i != j
      ensures !StartsWith(t[j].prefix, t[i].prefix)
    {
      DistinctAt(t[j].prefix, t[i].prefix, if t[i].prefix[5] != t[j].prefix[5] then 5 else 7);
    }
  }

  /** `detectType` of the generator: the first marker that prefixes the selector, else `Css`. */
  function GeneratorDetectType(selector: string): (k: LocatorType)
    ensures k == ClassifyBy(GeneratorMarkers, selector)
    ensures k != XPath
  {
    if StartsWith(selector, "getByRole") then Role
    else if StartsWith(selector, "getByLabel") then Label
    else if StartsWith(selector, "getByText") then Text
    else if StartsWith(selector, "getByPlaceholder") then Placeholder
    else if StartsWith(selector, "getByTestId") then TestId
    else Css
  }

  /** A call that starts with the marker at `index` of the table is classified as that marker's kind. */
  lemma CallIsClassified(r: string, index: nat)
    requires index < |GeneratorMarkers| && StartsWith(r, GeneratorMarkers[index].prefix)
    ensures GeneratorDetectType(r) == GeneratorMarkers[index].kind
  {
    GeneratorMarkersArePrefixFree();
    PrefixFreeMatchWins(GeneratorMarkers, r, index);
  }

  /**
   The healer and the generator test their markers in different orders but
   classify every string alike, since no marker is a prefix of another.
   */
  lemma DetectTypesAgree(selector: string)
    ensures GeneratorDetectType(selector) == Healer.DetectType(selector)
  {
    GeneratorMarkersArePrefixFree();
    Healer.HealerMarkersArePrefixFree();
    assert forall m :: m in GeneratorMarkers <==> m in Healer.HealerMarkers;
    SameMarkersSameClassification(GeneratorMarkers, Healer.HealerMarkers, selector);
  }

  // ---- properties of the generator ----

  function KindRank(kind: LocatorType): nat
  {
    match kind
    case Role => 0
    case Label => 1
    case Text => 2
    case Placeholder => 3
    case TestId => 4
    case Css => 5
    case XPath => 6
  }

  /** Every match of the pattern at `k` is classified as that pattern's kind. */
  lemma MatchOfPatternHasItsKind(s: string, k: nat)
    requires k < |CallPrefixes| && StartsWith(s, CallPrefixes[k])
    ensures KindRank(GeneratorDetectType(s)) == k
  {
    if k < 5 {
      MarkerCallsArePrefixes(k);
      PrefixOfPrefix(s, GeneratorMarkers[k].prefix, "(");
      CallIsClassified(s, k);
      assert KindRank(GeneratorMarkers[k].kind) == k;
    } else {
      assert s[0] == 'l';
      forall i | 0 <= i < |GeneratorMarkers|
        ensures !StartsWith(s, GeneratorMarkers[i].prefix)
      {
        DistinctAt(s, GeneratorMarkers[i].prefix, 0);
      }
      NoMarkerMeansCss(GeneratorMarkers, s);
    }
  }

  /** The first five call patterns are the five markers, each with its opening parenthesis. */
  lemma MarkerCallsArePrefixes(k: nat)
    requires k < 5
    ensures CallPrefixes[k] == GeneratorMarkers[k].prefix + "("
  {
  }

  /** Every locator the pattern at `i` of `prefixes` yields in `code` has rank `base + i`. */
  ghost predicate RankedBlocks(code: string, prefixes: seq<string>, base: nat)
  {
    forall i :: 0 <= i < |prefixes| ==> RankedBlock(LocatorsOf(code, prefixes[i]), base + i)
  }

  /** Ranks never below `base`, and non-decreasing from front to back. */
  ghost predicate RanksFrom(r: seq<LocatorStrategy>, base: nat)
  {
    && (forall i :: 0 <= i < |r| ==> base <= KindRank(r[i].kind))
    && forall i, j :: 0 <= i < j < |r| ==> KindRank(r[i].kind) <= KindRank(r[j].kind)
  }

  ghost predicate RankedBlock(block: seq<LocatorStrategy>, rank: nat)
  {
    forall k :: 0 <= k < |block| ==> KindRank(block[k].kind) == rank
  }

  /**
   Locators collected pattern by pattern, where the pattern at `i` yields
   only rank `base + i`, come in non-decreasing rank, none below `base`.
   */
  lemma {:induction false} LocatorsFollowPatternOrder(code: string, prefixes: seq<string>, base: nat)
    requires RankedBlocks(code, prefixes, base)
    ensures RanksFrom(LocatorsOfAll(code, prefixes), base)
    decreases |prefixes|
  {
    if prefixes != [] {
      assert RankedBlocks(code, prefixes[1..], base + 1) by {
        forall i | 0 <= i < |prefixes[1..]|
          ensures RankedBlock(LocatorsOf(code, prefixes[1..][i]), base + 1 + i)
        {
          assert prefixes[1..][i] == prefixes[i + 1];
        }
      }
      var head := LocatorsOf(code, prefixes[0]);
      var rest := LocatorsOfAll(code, prefixes[1..]);
      assert LocatorsOfAll(code, prefixes) == head + rest;
      LocatorsFollowPatternOrder(code, prefixes[1..], base + 1);
      assert RankedBlock(head, base + 0);
      OrderedConcatenation(head, rest, base);
    }
  }

  /** A block of rank `base` followed by an ordered block of ranks above it is ordered. */
  lemma OrderedConcatenation(head: seq<LocatorStrategy>, rest: seq<LocatorStrategy>, base: nat)
    requires RankedBlock(head, base)
    requires RanksFrom(rest, base + 1)
    ensures RanksFrom(head + rest, base)
  {
    var r := head + rest;
    forall i | 0 <= i < |r|
      ensures base <= KindRank(r[i].kind)
    {
      if i >= |head| {
        assert r[i] == rest[i - |head|];
      }
    }
    forall i, j | 0 <= i < j < |r|
      ensures KindRank(r[i].kind) <= KindRank(r[j].kind)
    {
      if j < |head| {
        assert r[i] == head[i] && r[j] == head[j];
      } else if i < |head| {
        assert r[i] == head[i] && r[j] == rest[j - |head|];
      } else {
        assert r[i] == rest[i - |head|] && r[j] == rest[j - |head|];
      }
    }
  }

  /**
   The locators of a script come pattern by pattern: role locators first,
   then label, text, placeholder and test-id ones, then the `locator(…)` calls.
   */
  lemma ExtractedLocatorsAreGroupedByKind(code: string)
    ensures var r := ExtractLocators(code);
      forall i, j :: 0 <= i < j < |r| ==> KindRank(r[i].kind) <= KindRank(r[j].kind)
  {
    forall i | 0 <= i < |CallPrefixes|
      ensures RankedBlock(LocatorsOf(code, CallPrefixes[i]), 0 + i)
    {
      var block := LocatorsOf(code, CallPrefixes[i]);
      forall k | 0 <= k < |block|
        ensures KindRank(block[k].kind) == i
      {
        assert block[k] in block;
        MatchOfPatternHasItsKind(block[k].selector, i);
      }
    }
    LocatorsFollowPatternOrder(code, CallPrefixes, 0);
    assert ExtractLocators(code) == LocatorsOfAll(code, CallPrefixes);
  }

  /** A match at `i` after `lo` where none starts in `[lo, hi)` starts at `hi` or later. */
  lemma NoCallBefore(code: string, prefix: string, lo: nat, hi: int, i: nat)
    requires NoCallIn(code, prefix, lo, hi) && CallAt(code, prefix, i) && lo <= i
    ensures hi <= i
  {
  }

  /** The global scan is determined by the script: two scans from the same place agree. */
  lemma {:induction false} GlobalScanIsUnique(code: string, prefix: string, from: nat, s1: seq<(nat, nat)>, s2: seq<(nat, nat)>)
    requires GlobalScan(code, prefix, from, s1) && GlobalScan(code, prefix, from, s2)
    ensures s1 == s2
    decreases |s1|
  {
    if s1 != [] && s2 != [] {
      NoCallBefore(code, prefix, from, s1[0].0, s2[0].0);
      NoCallBefore(code, prefix, from, s2[0].0, s1[0].0);
      GlobalScanIsUnique(code, prefix, s1[0].1, s1[1..], s2[1..]);
      assert s1 == [s1[0]] + s1[1..] && s2 == [s2[0]] + s2[1..];
    }
  }

  /**
   A step `Navigate to <address>` navigates to the address, whatever
   characters it holds, as long as it holds no white space.
   */
  lemma NavigateToAddress(address: string)
    requires |address| > 0 && forall k :: 0 <= k < |address| ==> !IsWhitespace(address[k])
    ensures ParseStep("Navigate to " + address) == Navigate(address)
    ensures StepLine(TypeScript, "Navigate to " + address) == "await page.goto('" + address + "');"
    ensures StepLine(Java, "Navigate to " + address) == "page.navigate(\"" + address + "\");"
  {
    NavigateIsNavigation(address);
    NavigationTargetIsAddress(address);
    assert ParseStep("Navigate to " + address) == Navigate(address);
  }

  lemma NavigationTargetIsAddress(address: string)
    requires |address| > 0 && forall k :: 0 <= k < |address| ==> !IsWhitespace(address[k])
    ensures NavigationTarget("Navigate to " + address) == address
  {
    AddressIsTheUrlMatch(address);
    var u := "to " + address;
    assert StartsWith(u, "to ");
    assert u[3..] == address;
  }

  lemma NavigateIsNavigation(address: string)
    ensures IsNavigation(ToLower("Navigate to " + address))
  {
    var l := ToLower("Navigate to " + address);
    assert l[..8] == "navigate";
    assert OccursAt(l, "navigate", 0);
  }

  /** In `Navigate to <address>` the address pattern first matches at `to `, and runs to the end. */
  lemma AddressIsTheUrlMatch(address: string)
    requires |address| > 0 && forall k :: 0 <= k < |address| ==> !IsWhitespace(address[k])
    ensures UrlMatch("Navigate to " + address) == Some("to " + address)
  {
    AddressMatchesAtTo(address);
    NavigateUrlMatch("Navigate to " + address);
  }

  /** A step that starts with `Navigate to ` and whose address runs to its end matches from the `to `. */
  lemma NavigateUrlMatch(s: string)
    requires |s| >= 12 && s[..12] == "Navigate to "
    requires UrlAt(s, 9) && UrlEnd(s, 9) == |s|
    ensures UrlMatch(s) == Some(s[9..])
  {
    NoAddressInNavigate(s);
    UrlMatchIsSuffix(s, 9);
  }

  /** When the leftmost match of the address pattern runs to the end, it is the whole rest of the step. */
  lemma UrlMatchIsSuffix(s: string, i: nat)
    requires UrlAt(s, i) && forall j: nat :: j < i ==> !UrlAt(s, j)
    requires UrlEnd(s, i) == |s|
    ensures UrlMatch(s) == Some(s[i..])
  {
    var r := FindUrl(s, 0);
    assert r.Some? && r.value <= i;
    assert r == Some(i);
    assert UrlMatch(s) == Some(s[i..UrlEnd(s, i)]);
    assert s[i..UrlEnd(s, i)] == s[i..];
  }

  /** The address pattern matches at the `to ` of `Navigate to <address>` and takes the rest of it. */
  lemma AddressMatchesAtTo(address: string)
    requires |address| > 0 && forall k :: 0 <= k < |address| ==> !IsWhitespace(address[k])
    ensures |"Navigate to " + address| >= 12 && ("Navigate to " + address)[..12] == "Navigate to "
    ensures UrlAt("Navigate to " + address, 9) && UrlEnd("Navigate to " + address, 9) == |"Navigate to " + address|
    ensures ("Navigate to " + address)[9..] == "to " + address
  {
    var s := "Navigate to " + address;
    assert s[..12] == "Navigate to ";
    assert s[9..] == "to " + address;
    assert UrlPrefixAt(s, 9) == Some("to ") by {
      assert s[9..12] == "to ";
    }
    assert s[12] == address[0];
    forall t | 12 <= t < |s|
      ensures InClass(NonSpace, s[t])
    {
      assert s[t] == address[t - 12];
    }
    RunReaches(s, 12, NonSpace, |s|);
  }

  /** No alternative of the address pattern starts inside the word `Navigate` or the space after it. */
  lemma NoAddressInNavigate(s: string)
    requires |s| >= 12 && s[..12] == "Navigate to "
    ensures forall j: nat :: j < 9 ==> !UrlAt(s, j)
  {
    forall j: nat | j < 9
      ensures UrlPrefixAt(s, j).None?
    {
      assert s[j] == "Navigate to "[j];
      if j == 6 {
        assert s[j + 1] == 'e';
        assert !OccursAt(s, "to ", j) by {
          assert s[j..j + 3][1] == 'e';
        }
      } else {
        FirstCharRulesOutOccurrence(s, "to ", j);
      }
      FirstCharRulesOutOccurrence(s, "https://", j);
      FirstCharRulesOutOccurrence(s, "http://", j);
    }
  }

  /** Every separator starts and ends with a space. */
  lemma SeparatorNeedsSpaces(s: string, j: nat)
    requires SeparatorAt(s, j).Some?
    ensures s[j] == ' ' && s[j + SeparatorAt(s, j).value - 1] == ' '
  {
    if OccursAtIgnoringCase(s, " in ", j) {
      NonLetterMatchesItself(s, " in ", j, 0);
      NonLetterMatchesItself(s, " in ", j, 3);
    } else if OccursAtIgnoringCase(s, " into ", j) {
      NonLetterMatchesItself(s, " into ", j, 0);
      NonLetterMatchesItself(s, " into ", j, 5);
    } else {
      NonLetterMatchesItself(s, " on ", j, 0);
      NonLetterMatchesItself(s, " on ", j, 3);
    }
  }

  /** No separator starts at a character other than a space. */
  lemma NoSeparatorWithoutSpace(s: string, j: nat)
    requires j < |s| ==> s[j] != ' '
    ensures SeparatorAt(s, j).None?
  {
    NonLetterMismatch(s, " in ", j, 0);
    NonLetterMismatch(s, " into ", j, 0);
    NonLetterMismatch(s, " on ", j, 0);
  }

  /** No separator starts at `j` when no space follows from `j + 3` on. */
  lemma NoSeparatorWithoutClosingSpace(s: string, j: nat)
    requires forall k :: j + 3 <= k < |s| ==> s[k] != ' '
    ensures SeparatorAt(s, j).None?
  {
    NonLetterMismatch(s, " in ", j, 3);
    NonLetterMismatch(s, " into ", j, 5);
    NonLetterMismatch(s, " on ", j, 3);
  }

  /**
   The typing pattern yields the groups of its match at keyword `i` and
   separator `j` when no keyword before `i` starts a match and no later
   separator completes one.
   */
  lemma FillMatchIs(s: string, i: nat, j: nat)
    requires FillAt(s, i, j)
    requires forall i': nat, j': nat :: i' < i ==> !FillAt(s, i', j')
    requires forall j' :: j < j' ==> !FillAt(s, i, j')
    ensures var q := j + SeparatorAt(s, j).value;
      FillMatch(s) == Some((s[i + 5..j], s[q..RunEnd(s, q, AnyInLine)]))
  {
    FindFillFinds(s, i, j);
  }

  /** The search for the typing pattern stops at that keyword and separator. */
  lemma FindFillFinds(s: string, i: nat, j: nat)
    requires FillAt(s, i, j)
    requires forall i': nat, j': nat :: i' < i ==> !FillAt(s, i', j')
    requires forall j' :: j < j' ==> !FillAt(s, i, j')
    ensures FindFill(s, 0) == Some((i, j))
  {
    var r := FindFill(s, 0);
    assert r.Some?;
    var (i0, j0) := r.value;
    assert i0 <= i;
    assert i0 == i;
    assert j <= j0;
  }

  /**
   Typing a value into a field round-trips through the typing pattern: the
   match of `Type <value> into <field>` gives back the value and the field,
   whatever the value holds on its line, as long as the field holds no white
   space.
   */
  lemma TypedValueRoundTrip(value: string, field: string)
    requires |value| > 0 && forall t :: 0 <= t < |value| ==> !IsLineTerminator(value[t])
    requires |field| > 0 && forall t :: 0 <= t < |field| ==> !IsWhitespace(field[t])
    ensures FillMatch("Type " + value + " into " + field) == Some((value, field))
  {
    var s := "Type " + value + " into " + field;
    assert s[..5] == "Type " && s[5..5 + |value|] == value;
    assert s[5 + |value|..11 + |value|] == " into " && s[11 + |value|..] == field;
    TypedStepRoundTrip(s, value, field);
  }

  /** The typing pattern gives back the value and the field of a typed step. */
  lemma TypedStepRoundTrip(s: string, value: string, field: string)
    requires TypedStep(s, value, field)
    ensures FillMatch(s) == Some((value, field))
  {
    var j := 5 + |value|;
    var q := j + 6;
    TypedStepMatches(s, value, field);
    TypedStepHasNoLaterSeparator(s, value, field);
    FillMatchIs(s, 0, j);
    forall t | q <= t < |s|
      ensures InClass(AnyInLine, s[t])
    {
      assert s[t] == field[t - q];
    }
    RunToEnd(s, q, AnyInLine);
  }

  /** The parts of a step `Type <value> into <field>`. */
  ghost predicate TypedStep(s: string, value: string, field: string)
  {
    && |value| > 0 && (forall t :: 0 <= t < |value| ==> !IsLineTerminator(value[t]))
    && |field| > 0 && (forall t :: 0 <= t < |field| ==> !IsWhitespace(field[t]))
    && |s| == 11 + |value| + |field|
    && s[..5] == "Type " && s[5..5 + |value|] == value
    && s[5 + |value|..11 + |value|] == " into " && s[11 + |value|..] == field
  }

  /** The typing pattern matches a typed step with its keyword in front and its separator after the value. */
  lemma TypedStepMatches(s: string, value: string, field: string)
    requires TypedStep(s, value, field)
    ensures SeparatorAt(s, 5 + |value|) == Some(6)
    ensures FillAt(s, 0, 5 + |value|)
  {
    var j := 5 + |value|;
    assert KeywordAt(s, 0) by {
      assert FoldAscii(s[0..5]) == "type ";
    }
    assert s[j..j + 6] == " into ";
    assert s[j + 3] == 't';
    NonLetterMismatch(s, " in ", j, 3);
    assert FoldAscii(s[j..j + 6]) == " into ";
    forall t | 5 <= t < j
      ensures !IsLineTerminator(s[t])
    {
      assert s[t] == value[t - 5];
    }
    assert s[j + 6] == field[0];
  }

  /** After the separator of a typed step, the field leaves no room for another separator. */
  lemma TypedStepHasNoLaterSeparator(s: string, value: string, field: string)
    requires TypedStep(s, value, field)
    ensures forall j' :: 5 + |value| < j' ==> SeparatorAt(s, j').None?
  {
    var j := 5 + |value|;
    var q := j + 6;
    forall j' | j < j'
      ensures SeparatorAt(s, j').None?
    {
      if j' < q - 1 {
        assert s[j'] == s[j..q][j' - j];
        NoSeparatorWithoutSpace(s, j');
      } else if j' == q - 1 {
        forall k | j' + 3 <= k < |s|
          ensures s[k] != ' '
        {
          assert s[k] == field[k - q];
        }
        NoSeparatorWithoutClosingSpace(s, j');
      } else {
        if j' < |s| {
          assert s[j'] == field[j' - q];
        }
        NoSeparatorWithoutSpace(s, j');
      }
    }
  }

  /**
   A step `Type <value> into <field>` that names no navigation and no click
   fills the field's suggested locator with the value.
   */
  lemma TypingStepFills(value: string, field: string)
    requires |value| > 0 && forall t :: 0 <= t < |value| ==> !IsLineTerminator(value[t])
    requires |field| > 0 && forall t :: 0 <= t < |field| ==> !IsWhitespace(field[t])
    requires !IsNavigation(ToLower("Type " + value + " into " + field))
    requires !Includes(ToLower("Type " + value + " into " + field), "click")
    ensures ParseStep("Type " + value + " into " + field) == Fill(SuggestLocator(field), value)
  {
    var l := ToLower("Type " + value + " into " + field);
    assert l[..4] == "type";
    assert OccursAt(l, "type", 0);
    TypedValueRoundTrip(value, field);
  }
}

=== FILE: types.dfy ===
/** The optional-value wrapper used for every optional field of the model. */
module Wrappers {

  /** A value that may be absent: JavaScript's `undefined` is `None`. */
  datatype Option<+T> = None | Some(value: T)
}

/**
 The record shapes shared by the healer, the snapshot parser and the test
 generator (src/types/index.ts).
 */
module Types {
  import opened Wrappers

  /** The closed set of locator kinds. */
  datatype LocatorType = Role | Label | Text | Placeholder | TestId | Css | XPath

  /** A proposed or classified locator: its kind, its selector text and a confidence. */
  datatype LocatorStrategy = LocatorStrategy(kind: LocatorType, selector: string, confidence: real)

  /**
   One candidate element observed in the page. `ref`, `tag` and `attributes`
   are always there; the five accessibility fields may be absent.
   */
  datatype ElementSnapshot = ElementSnapshot(
    ref: string,
    tag: string,
    role: Option<string>,
    labelText: Option<string>,   // the `label` field (`label` is a Dafny keyword)
    text: Option<string>,
    placeholder: Option<string>,
    testId: Option<string>,
    attributes: map<string, string>)

  /** One replacement proposed for a broken locator. */
  datatype HealingSuggestion = HealingSuggestion(
    original: string,
    fixed: string,
    strategy: LocatorStrategy,
    reason: string)

  /** The healer's configuration; duplicates in `priorityOrder` are not excluded. */
  datatype HealerConfig = HealerConfig(priorityOrder: seq<LocatorType>, minConfidence: real)

  /** The only framework a generation request may name. */
  datatype Framework = Playwright

  /** The target languages of the test generator. */
  datatype Language = Java | TypeScript | JavaScript

  datatype TestGenerationRequest = TestGenerationRequest(
    url: Option<string>,
    steps: seq<string>,
    framework: Framework,
    language: Language)

  datatype TestGenerationResult = TestGenerationResult(
    code: string,
    locators: seq<LocatorStrategy>,
    errors: seq<string>)

  /** JavaScript truthiness of an optional string: present and not empty. */
  predicate Present(o: Option<string>)
  {
    o.Some? && o.value != ""
  }

  /** What a template literal prints for an optional string: `undefined` when absent. */
  function Show(o: Option<string>): string
  {
    match o
    case Some(s) => s
    case None => "undefined"
  }

  /** Looking up an attribute by name; a missing key reads as `undefined`. */
  function Attribute(el: ElementSnapshot, name: string): Option<string>
  {
    if name in el.attributes then Some(el.attributes[name]) else None
  }
}
